=== FILE: README.md ===
# TCU Coach training pipeline in Dafny

This project models the training-load and decision pipeline of the TCU Coach
cycling assistant:

- the six-zone power classifier and its duration label (`powerZones.ts`);
- the analysis of an activity's sample streams: presence of power and heart
  rate, average and peak power, seconds per zone and the rounded zone
  distribution (`streamAnalyzer.ts`);
- the readiness decision crossing training-stress balance (TSB) with the
  athlete's self-report (`drWatts/decisionEngine.ts`);
- the four fixed workout templates with their duration and simplified
  training-stress totals, and the Zwift workout (ZWO) export
  (`drWatts/workoutGenerator.ts`);
- the conversion of sample streams into one chart point per sample
  (`utils/strava.ts`);
- the training-load calculation done when an activity is analysed, taken out of
  the `analyzeActivity` hook as a pure function (`hooks/useDrTcu.ts`). It is
  modelled together with the copy of the same score shown beside each listed
  activity (`CoachReportPanel.tsx`).

Modules follow the source files:

- `Common`: options, `Math.round`, `toFixed`, JavaScript's `%`, digit strings and splitting helpers.
- `CoachTypes`: the records of `types/coach.ts`.
- `PowerZones`, `StreamAnalyzer`, `DecisionEngine`, `WorkoutGenerator`, `StravaTransform` and `LoadCalculator`: one per source file.
- `ZwoReader`: a reader for the exported ZWO text. It is the inverse the export is proved against.

Conventions of the model:

- Watts, FTP, TSB, stream samples and an activity's moving and elapsed times
  are `real`, and so are the classifier's percentage of FTP and a chart point's
  cadence. A workout step's duration, power percentage and cadence, and RPE,
  are `int`, and so is the seconds count a duration label is made from.
- `Math.round(x)` is `floor(x + 1/2)`. `Number(x.toFixed(d))` is the nearest
  multiple of `10^-d`, halves rounded away from zero (`Common.ToFixed`).
- JavaScript's `%` truncates toward zero (`JsRem`).
- A read past the end of an array is `undefined`, modelled as `None`.
- A field that is `number` but may be missing at run time, such as
  `moving_time`, is an `Option`. A JavaScript `||` fallback treats a missing
  value and zero alike (`Truthy`, `OrElse`).
- A stream's `type` field is called `kind`. Its samples are a datatype
  (`Num`, `LatLng`, `Flag`), and `WellTyped` says each stream carries the sample
  shape its type declares.
- Where a source type has a union of string literals, the model has a datatype:
  step types, sleep quality, feeling, decision types and a workout's focus
  (`TrainingFocus`). The decision's `recommendedFocus` is free text in the
  source and stays a `string`.

## Model

| member | source | states |
|---|---|---|
| PowerZones.GetZone | src/lib/drTcu/powerZones.ts:12-19 | the result is the table entry of its zone, `pct` lies in that zone's threshold band, and in no other zone's band |
| PowerZones.GetZoneThresholds | src/lib/drTcu/powerZones.ts:12-19 | zone 1 iff pct <= 55, 2 iff 55 < pct <= 75, 3 iff 75 < pct <= 90, 4 iff 90 < pct <= 105, 5 iff 105 < pct <= 120, 6 iff pct > 120 |
| PowerZones.GetZoneMonotone | src/lib/drTcu/powerZones.ts:13-18 | a higher percentage never gets a lower zone |
| PowerZones.ZoneTableConsistent | src/lib/drTcu/powerZones.ts:3-10 | the table has keys 1..6, each entry's zone is its key, and each band starts one above the previous band's upper bound, from 0 |
| PowerZones.IntegerPctInTableBand | src/lib/drTcu/powerZones.ts:4-18 | for a whole percentage in 0..200 the returned zone's minPct..maxPct band contains it |
| PowerZones.TableBandsMissFractionsAndExtremes | src/lib/drTcu/powerZones.ts:4-18 | 55.5 % is classified zone 2 yet lies below zone 2's minPct, and 250 % is zone 6 yet above its maxPct |
| PowerZones.FormatDuration | src/lib/drTcu/powerZones.ts:21-25 | the label's text before the first `m` is the floor of seconds / 60, and the label ends in `s` exactly when the truncating remainder seconds % 60 is positive |
| PowerZones.FormatDurationRoundTrip | src/lib/drTcu/powerZones.ts:21-25 | for non-negative seconds, reading the label back gives the same number of seconds |
| StreamAnalyzer.FindIndex | src/lib/drTcu/streamAnalyzer.ts:22-23 | `find` returns the first stream of the type, and nothing exactly when no stream has that type |
| StreamAnalyzer.BucketAgreesWithGetZone | src/lib/drTcu/streamAnalyzer.ts:42-49 | the analyzer's inline threshold chain picks the same zone as the zone classifier for every percentage |
| StreamAnalyzer.CountsCoverSamples | src/lib/drTcu/streamAnalyzer.ts:41-51 | every sample is counted in exactly one zone: the six zone counts add up to the number of samples |
| StreamAnalyzer.AnalyzeStreams | src/lib/drTcu/streamAnalyzer.ts:21-55 | hasPower and hasHeartRate hold iff a stream of that type exists, even with empty data. The variability index is 1. Without power samples the averages are 0 and all six zone counts are 0. Otherwise the average is sum / count, the maximum bounds and equals a sample, each zone count is the number of samples in that zone, and the counts total the sample count |
| StreamAnalyzer.Aggregate | src/lib/drTcu/streamAnalyzer.ts:35-51 | over non-empty samples: the running total is the samples' sum, the maximum bounds every sample and is one of them, and each zone's count is the number of samples the threshold chain puts in that zone |
| StreamAnalyzer.GetZoneDistribution | src/lib/drTcu/streamAnalyzer.ts:60-69 | empty iff no seconds were counted; otherwise keys 1..6 with each value round(secs / total * 100) in 0..100 |
| StreamAnalyzer.ExactBoundaryCases | src/lib/drTcu/streamAnalyzer.ts:42-66 | with exact arithmetic, 110 W at 200 W FTP and 137.5 W at 250 W are exactly 55 % and count in zone 1, and 23 of 40 seconds is a 58 % share |
| StreamAnalyzer.DistributionNearlyHundred | src/lib/drTcu/streamAnalyzer.ts:61-68 | the six rounded percentages add up to between 98 and 103 |
| DecisionEngine.DecideTraining | src/lib/drWatts/decisionEngine.ts:3-47 | RECOVERY iff tsb < -10 and feels bad, ADAPTIVE_CAP iff tsb < -10 and not feels bad, TECHNIC iff tsb >= -10 and feels bad, TARGET iff tsb >= -10 and not feels bad; reason and focus are the category's fixed texts |
| DecisionEngine.ReasonSingleLine | src/lib/drWatts/decisionEngine.ts:18-45 | none of the four reason texts contains a line break |
| DecisionEngine.FreshIsNotFatigued | src/lib/drWatts/decisionEngine.ts:10-11 | fresh is exactly not fatigued |
| DecisionEngine.FeelsBadOrGood | src/lib/drWatts/decisionEngine.ts:13-14 | every self-report feels bad or feels good |
| DecisionEngine.SignalsOverlap | src/lib/drWatts/decisionEngine.ts:13-14 | poor sleep with no other warning sign both feels bad and feels good |
| DecisionEngine.OverlapResolvedByOrder | src/lib/drWatts/decisionEngine.ts:17-31 | in that overlap a fatigued athlete gets RECOVERY, because that branch comes first |
| DecisionEngine.DecisionDependsOnTsbAndFeelsBad | src/lib/drWatts/decisionEngine.ts:10-46 | two inputs that agree on fatigue and on feeling bad get the same decision |
| WorkoutGenerator.GenerateWorkout | src/lib/drWatts/workoutGenerator.ts:4-78 | the steps are the category's template, title and focus are the category's, the reason is copied from the decision, the totals are the duration sum and the rounded stress sum, and there is no nutrition strategy |
| WorkoutGenerator.TemplateTotals | src/lib/drWatts/workoutGenerator.ts:10-76 | RECOVERY, ADAPTIVE_CAP, TECHNIC and TARGET have 3, 3, 7 and 7 steps, last 2100, 3600, 2130 and 4380 s, and score 16, 42, 20 and 74 |
| WorkoutGenerator.GenerateWorkoutReadsKindAndReason | src/lib/drWatts/workoutGenerator.ts:4-78 | only the decision's category and reason are read: decisions agreeing on both give the same workout |
| WorkoutGenerator.TemplateCadences | src/lib/drWatts/workoutGenerator.ts:35-41 | only TECHNIC's steps 2, 4 and 6 carry a cadence, 110, 120 and 130 in that order |
| WorkoutGenerator.RecoveryStaysInZoneOne | src/lib/drWatts/workoutGenerator.ts:14-18 | every step of the recovery spin is zone 1 |
| WorkoutGenerator.AdaptiveCapStaysBelowZoneThree | src/lib/drWatts/workoutGenerator.ts:24-28 | no step of the capped endurance ride reaches zone 3 |
| WorkoutGenerator.TargetPeaksInZoneThree | src/lib/drWatts/workoutGenerator.ts:48-56 | the sweet-spot session never goes above zone 3, and both 20-minute sweet-spot blocks are in zone 3 |
| WorkoutGenerator.TechnicBurstsReachZoneFive | src/lib/drWatts/workoutGenerator.ts:34-42 | all three cadence bursts are zone 5, and no drill step reaches zone 6 |
| WorkoutGenerator.StepStressIsActivityScore | src/lib/drWatts/workoutGenerator.ts:62-67 | a step's simplified stress equals the activity score formula for riding it at powerPct % of any positive FTP |
| WorkoutGenerator.EmitOneStep | src/lib/drWatts/workoutGenerator.ts:88-101 | appending one step's element line and moving to the next step keeps the text emitted so far, followed by the remaining elements, unchanged |
| WorkoutGenerator.GenerateZwo | src/lib/drWatts/workoutGenerator.ts:80-104 | the document is the fixed header with name and description, then one element line per step in step order, then the closing tags |
| WorkoutGenerator.FormatPower | src/lib/drWatts/workoutGenerator.ts:90-98 | the text of pct / 100 reads back as pct (after a leading `-` for a negative pct), holds no quote or line break, and never ends in a `0` after a decimal point |
| WorkoutGenerator.FormatFraction | src/lib/drWatts/workoutGenerator.ts:90-98 | the decimal text of a non-negative p / 100 is non-empty, reads back as p, and drops trailing zeros after the point |
| ZwoReader.ReadSegmentRoundTrip | src/lib/drWatts/workoutGenerator.ts:92-99 | for a step with non-negative duration, power and cadence and a single-line description, its element reads back as its kind's element with the step's duration, power and description. A cadence comes back only for steady-state steps with a non-zero cadence |
| ZwoReader.ZwoRoundTrip | src/lib/drWatts/workoutGenerator.ts:80-104 | for a workout whose title, reason and step descriptions are single lines and whose step numbers are non-negative, reading the export back gives its title, its reason and one segment per step in step order |
| ZwoReader.GeneratedIsExportable | src/lib/drWatts/workoutGenerator.ts:4-78 | every generated workout meets the export round trip's precondition once the decision's reason is a single line |
| ZwoReader.GeneratedWorkoutRoundTrip | src/lib/drWatts/workoutGenerator.ts:4-104 | for a decision whose reason is a single line, exporting the generated workout reads back the category's title, the decision's reason and one segment per template step |
| ZwoReader.DecidedWorkoutRoundTrip | src/lib/drWatts/workoutGenerator.ts:4-104 | for every training decision, the generated workout is exportable and its export reads back the category's title, the decision's fixed reason and one segment per template step |
| ZwoReader.ExportAndRead | src/lib/drWatts/workoutGenerator.ts:80-104 | for a workout meeting the same conditions, the text the export method builds reads back to the workout's title, reason and steps |
| StravaTransform.LastIndex | src/lib/utils/strava.ts:40-43 | the type-keyed map keeps the last stream of each type |
| StravaTransform.PointAt | src/lib/utils/strava.ts:67-95 | point i has index i and the time read at i. Distance is the read at i when a distance stream exists, else 0. Each optional field is set iff its stream exists and then holds that stream's element i. Speed is set iff a velocity stream exists, and a velocity sample at i always gives the speed to one decimal of it times 3.6. lat and lng are set together, exactly when the latlng series has a position at i, and then hold it |
| StravaTransform.SpeedKmh | src/lib/utils/strava.ts:82-85 | the shown speed is a whole number of tenths within 0.05 of metres per second times 3.6, a tie going away from zero |
| Common.ToFixed | src/lib/hooks/useDrTcu.ts:120 | the result is a whole number of 1/s units within half a unit of x, a tie going away from zero, and keeps the sign of x |
| StravaTransform.TransformStreamsToDataPoints | src/lib/utils/strava.ts:25-98 | no points without a time stream; otherwise one point per sample of the first time stream, point k being the chart point for index k |
| StravaTransform.CoIndexedPointsAreComplete | src/lib/utils/strava.ts:67-80 | when all streams share one length, every point has a time, a distance and a number in every set numeric field |
| StravaTransform.CoIndexedPointsHaveSpeedFlagAndPosition | src/lib/utils/strava.ts:80-92 | with co-indexed streams, a set speed or moving flag holds a value, and a latlng stream gives every point a position |
| StravaTransform.TimesFollowTheTimeStream | src/lib/utils/strava.ts:27-70 | when the first time stream is also the last one, point k's time is that stream's sample k |
| StravaTransform.ShorterLastTimeStreamLeavesGaps | src/lib/utils/strava.ts:27-70 | with two time streams of lengths 2 and 1, there are two points and the second has no time |
| LoadCalculator.Power | src/lib/hooks/useDrTcu.ts:98 | weighted average power, else average power, else 150 W; a zero falls through |
| LoadCalculator.EffectiveFtp | src/lib/hooks/useDrTcu.ts:100-111 | the manual FTP if stored, else a truthy profile FTP, else 200 W |
| LoadCalculator.MovingTime | src/lib/hooks/useDrTcu.ts:114 | the moving time, 3600 s when missing or zero |
| LoadCalculator.RawTssIsHoursTimesIfSquared | src/lib/hooks/useDrTcu.ts:113-115 | the unrounded score is seconds times IF squared over 36 |
| LoadCalculator.OneHourAtFtpScoresHundred | src/lib/hooks/useDrTcu.ts:115 | an hour at FTP scores exactly 100 |
| LoadCalculator.TssMonotoneInPower | src/lib/hooks/useDrTcu.ts:115 | for a fixed positive FTP and non-negative time the score does not decrease as non-negative power grows |
| LoadCalculator.TssMonotoneInTime | src/lib/hooks/useDrTcu.ts:115 | for a fixed positive FTP the score does not decrease as moving time grows |
| LoadCalculator.TssNotStrictlyMonotone | src/lib/hooks/useDrTcu.ts:115 | 100 W and 100.1 W for an hour at 200 W FTP both score 25 |
| LoadCalculator.ComputeHardData | src/lib/hooks/useDrTcu.ts:98-127 | FTP by the fallback chain. IF is power / FTP kept to two decimals, a tie going away from zero. The score is round(moving time times exact IF squared over 36). TSB is -15, the activity list holds just this activity, and missing suffer score, kilojoules and heart rates become 0 |
| LoadCalculator.HardDataDecisionIsCautious | src/lib/hooks/useDrTcu.ts:121 | any decision made from this record is RECOVERY or ADAPTIVE_CAP |
| LoadCalculator.ListedActivityTss | src/components/dr-tcu/CoachReportPanel.tsx:363-367 | the listed score is 0 without a non-zero average power and moving time, and never negative for a non-negative moving time |
| LoadCalculator.ListedTssAgreesWithHardData | src/components/dr-tcu/CoachReportPanel.tsx:363-367 | with non-zero average power and moving time and no weighted power, the listed score equals the analysed one at the record's FTP |

## Left out

- React components, timers, `fetch`, Supabase, `localStorage`, the OAuth
  popup and the FastAPI backend: they are I/O and user-interface wiring. The
  manual FTP and the profile FTP are parameters of `ComputeHardData`.
- `parseInt` of the stored FTP text and `JSON.parse` of the stored profile:
  the manual FTP arrives already parsed as `Option<int>`, the profile FTP as an
  `Option<real>`.
- IEEE-754 behaviour: values are exact reals, so NaN, infinities, binary
  rounding in `toFixed`, and exponential notation for very large numbers are
  not modelled. For the same reason a non-positive FTP, which would divide by
  zero, is excluded by a precondition rather than given JavaScript's
  `Infinity`/`NaN` results.
- StreamAnalyzer.AnalyzeStreams: zone counts follow exact arithmetic, so a
  sample whose `(watt / ftp) * 100` is exactly a zone threshold counts in the
  lower zone. With doubles, 110 W at 200 W FTP (and 55 % of FTP 250, 260 or 300)
  gives 55.00000000000001 and the source counts it in zone 2.
  `StreamAnalyzer.ExactBoundaryCases` records the model's side.
- StreamAnalyzer.GetZoneDistribution: shares follow exact arithmetic, so an
  exact half rounds up. With doubles, 23 of 40 seconds gives 57.49999999999999
  and `Math.round` gives 57, where the model gives 58.
- `Math.max(...data)` throwing on very long arrays is not modelled.
- `PowerZones.FormatDuration` takes whole seconds; fractional seconds are not
  modelled.
- A stream whose `data` is missing at run time: `data` is always a sequence
  here, so the `!timeStream.data` and `if (s.data)` guards in `strava.ts`
  never fire.
- In `transformStreamsToDataPoints` an out-of-range velocity gives `NaN`, and
  the model records an absent speed value for it.
- The `console.warn` and `console.log` calls.
- The workout generator's `switch` has no default case. The model's category
  is a closed datatype, so there is no unknown category.
- LoadCalculator.ListedActivityTss: states only the zero cases and the sign,
  because the full value is `LoadCalculator.Tss` at the listed power and FTP,
  and `ListedTssAgreesWithHardData` relates it to the analysed score.
- The rounded score is only non-decreasing in power, not strictly increasing.
  `LoadCalculator.TssNotStrictlyMonotone` gives two powers with the same score,
  and the model follows the code.

=== FILE: coach_types.dfy ===
/** The records the coaching pipeline passes between its stages (src/types/coach.ts).
    Watts, FTP, TSB, intensity factors and an activity's times are reals;
    workout-step durations, percentages, RPE and cadence are integers. A source
    field named `type` is called `kind` here. */
module CoachTypes {
  import opened Common

  /** One of the six power zones: its number, name, inclusive integer band of
      percent-of-FTP, and a description. */
  datatype PowerZone = PowerZone(
    zone: int,
    name: string,
    minPct: int,
    maxPct: int,
    description: string)

  /** The summary of one activity as the activity source supplies it. Fields the
      source may omit are optional. */
  datatype StravaActivity = StravaActivity(
    name: string,
    distance: real,
    movingTime: Option<real>,
    elapsedTime: real,
    totalElevationGain: real,
    kind: string,
    startDateLocal: string,
    averageWatts: Option<real>,
    weightedAverageWatts: Option<real>,
    sufferScore: Option<real>,
    kilojoules: Option<real>,
    averageHeartrate: Option<real>,
    maxHeartrate: Option<real>)

  /** The athlete's objective load snapshot. */
  datatype UserHardData = UserHardData(
    ftp: real,
    yesterdayTss: int,
    yesterdayIf: real,
    tsb: real,
    recentActivities: Option<seq<StravaActivity>>,
    sufferScore: Option<real>,
    kilojoules: Option<real>,
    maxHeartRate: Option<real>,
    avgHeartRate: Option<real>)

  datatype SleepQuality = Poor | Average | Good

  datatype Feeling = Tired | Ok | Fresh

  /** The athlete's self-report: RPE on a 1-10 scale, soreness, sleep, feeling. */
  datatype UserSubjectiveData = UserSubjectiveData(
    rpe: int,
    soreness: bool,
    sleepQuality: SleepQuality,
    feeling: Feeling)

  datatype DecisionType = Recovery | AdaptiveCap | Technic | Target

  datatype DecisionResult = DecisionResult(
    kind: DecisionType,
    reason: string,
    recommendedFocus: string)

  datatype StepType = Warmup | Active | Rest | Cooldown

  /** One prescribed segment; `powerPct` is percent of FTP. */
  datatype WorkoutStep = WorkoutStep(
    kind: StepType,
    durationSeconds: int,
    powerPct: int,
    cadence: Option<int>,
    description: string)

  datatype NutritionStrategy = NutritionStrategy(pre: string, during: string, post: string)

  /** The zone name a generated session trains. */
  datatype TrainingFocus = RecoveryFocus | Endurance | Tempo | Threshold | VO2Max | Anaerobic

  /** A generated session. */
  datatype DailyWorkout = DailyWorkout(
    title: string,
    focus: TrainingFocus,
    decisionReason: string,
    steps: seq<WorkoutStep>,
    totalTss: int,
    totalDurationSeconds: int,
    nutritionStrategy: Option<NutritionStrategy>)
}

=== FILE: common.dfy ===
/** Small shared vocabulary: an optional value, JavaScript's rounding, and the
    decimal text of integers together with the pieces needed to read it back. */
module Common {

  /** A value that may be missing. The failure-compatible members let readers
      chain steps with `:-`. */
  datatype Option<+T> = None | Some(value: T) {

    predicate IsFailure() {
      None?
    }

    function PropagateFailure<U>(): Option<U>
      requires None?
    {
      None
    }

    function Extract(): T
      requires Some?
    {
      value
    }
  }

  /** JavaScript's `Math.round`: the nearest integer, with halves rounded up. */
  function Round(x: real): (r: int)
    ensures x - 0.5 < r as real <= x + 0.5
  {
    (x + 0.5).Floor
  }

  lemma RoundMonotone(x: real, y: real)
    requires x <= y
    ensures Round(x) <= Round(y)
  {
  }

  /** `Number(x.toFixed(d))` on an exact value, with `s = 10^d`: the nearest
      multiple of `1 / s`, halves rounded away from zero. */
  function ToFixed(x: real, s: real): (r: real)
    requires s >= 1.0
    ensures -0.5 <= (r - x) * s <= 0.5
    ensures x >= 0.0 ==> -0.5 < (r - x) * s
    ensures x < 0.0 ==> (r - x) * s < 0.5
    ensures (r * s).Floor as real == r * s
    ensures x >= 0.0 ==> r >= 0.0
    ensures x <= 0.0 ==> r <= 0.0
  {
    var n := if x >= 0.0 then (x * s + 0.5).Floor else -((-x) * s + 0.5).Floor;
    var r := n as real / s;
    ScaledBack(n, x, s, r);
    r
  }

  /** `r = n / s`, scaled back by `s`, is the whole number `n`, and lies within
      half a unit of `x * s`; a tie goes to the neighbour away from zero. */
  lemma ScaledBack(n: int, x: real, s: real, r: real)
    requires s >= 1.0
    requires x >= 0.0 ==> n == (x * s + 0.5).Floor
    requires x < 0.0 ==> n == -((-x) * s + 0.5).Floor
    requires r == n as real / s
    ensures -0.5 <= (r - x) * s <= 0.5
    ensures x >= 0.0 ==> -0.5 < (r - x) * s
    ensures x < 0.0 ==> (r - x) * s < 0.5
    ensures (r * s).Floor as real == r * s
    ensures x >= 0.0 ==> r >= 0.0
    ensures x <= 0.0 ==> r <= 0.0
  {
    assert r * s == n as real;
    assert (r * s).Floor == n;
    assert (r - x) * s == r * s - x * s;
    if x < 0.0 {
      assert (-x) * s == -(x * s);
    } else {
      assert x * s >= 0.0;
    }
  }

  /** JavaScript's `%` on integers with a positive divisor: it truncates, so the
      remainder takes the sign of the dividend. */
  function JsRem(a: int, b: int): (r: int)
    requires b > 0
    ensures -b < r < b
    ensures a >= 0 ==> r == a % b
    ensures a < 0 ==> r <= 0
  {
    if a >= 0 then a % b else -((-a) % b)
  }

  // ---------------------------------------------------------------------------
  // Decimal text of integers

  predicate IsDigit(c: char) {
    '0' <= c <= '9'
  }

  predicate AllDigits(s: string) {
    forall i | 0 <= i < |s| :: IsDigit(s[i])
  }

  function DigitChar(d: int): (c: char)
    requires 0 <= d < 10
    ensures IsDigit(c)
  {
    ('0' as int + d) as char
  }

  function DigitValue(c: char): (d: int)
    requires IsDigit(c)
    ensures 0 <= d < 10
  {
    c as int - '0' as int
  }

  lemma DigitValueOfChar(d: int)
    requires 0 <= d < 10
    ensures DigitValue(DigitChar(d)) == d
  {
  }

  /** The decimal text JavaScript prints for a non-negative integer. */
  function NatToString(n: nat): (s: string)
    ensures |s| >= 1 && AllDigits(s)
  {
    if n < 10 then [DigitChar(n)] else NatToString(n / 10) + [DigitChar(n % 10)]
  }

  /** The decimal text JavaScript prints for any integer. */
  function IntToString(i: int): (s: string)
    ensures |s| >= 1
    ensures i >= 0 ==> s == NatToString(i)
    ensures i < 0 ==> s == "-" + NatToString(-i)
  {
    if i < 0 then "-" + NatToString(-i) else NatToString(i)
  }

  /** The value of a string of decimal digits. */
  function ParseNat(s: string): nat
    requires AllDigits(s)
  {
    if |s| == 0 then 0 else 10 * ParseNat(s[..|s| - 1]) + DigitValue(s[|s| - 1])
  }

  lemma {:induction false} ParseNatToString(n: nat)
    ensures ParseNat(NatToString(n)) == n
  {
    var s := NatToString(n);
    if n < 10 {
      DigitValueOfChar(n);
    } else {
      assert s[..|s| - 1] == NatToString(n / 10);
      assert s[|s| - 1] == DigitChar(n % 10);
      DigitValueOfChar(n % 10);
      ParseNatToString(n / 10);
    }
  }

  /** Reads a non-empty run of digits; anything else is refused. */
  function ParseNatText(s: string): (r: Option<nat>)
    ensures r.Some? <==> |s| >= 1 && AllDigits(s)
  {
    if |s| >= 1 && AllDigits(s) then Some(ParseNat(s)) else None
  }

  lemma ParseNatTextRoundTrip(n: nat)
    ensures ParseNatText(NatToString(n)) == Some(n)
  {
    ParseNatToString(n);
  }

  lemma NonDigitNotInDigits(s: string, c: char)
    requires AllDigits(s) && !IsDigit(c)
    ensures c !in s
  {
  }

  // ---------------------------------------------------------------------------
  // Cutting text apart

  /** Splits `s` at the first occurrence of `c`: the text before it and the text
      after it, or None when `c` does not occur. */
  function SplitAt(s: string, c: char): (r: Option<(string, string)>)
    ensures r.None? <==> c !in s
    ensures r.Some? ==> s == r.value.0 + [c] + r.value.1 && c !in r.value.0
  {
    if |s| == 0 then None
    else if s[0] == c then Some(([], s[1..]))
    else
      match SplitAt(s[1..], c)
      case None => None
      case Some(p) => Some(([s[0]] + p.0, p.1))
  }

  lemma {:induction false} SplitAtFirst(a: string, c: char, b: string)
    requires c !in a
    ensures SplitAt(a + [c] + b, c) == Some((a, b))
  {
    if |a| == 0 {
      assert a + [c] + b == [c] + b;
    } else {
      var s := a + [c] + b;
      assert s[0] == a[0];
      assert s[1..] == a[1..] + [c] + b;
      SplitAtFirst(a[1..], c, b);
      assert [a[0]] + a[1..] == a;
    }
  }

  function StripPrefix(s: string, p: string): (r: Option<string>)
    ensures r.Some? <==> p <= s
    ensures r.Some? ==> s == p + r.value
  {
    if p <= s then Some(s[|p|..]) else None
  }

  lemma StripPrefixOf(p: string, t: string)
    ensures StripPrefix(p + t, p) == Some(t)
  {
    assert (p + t)[..|p|] == p;
    assert (p + t)[|p|..] == t;
  }

  function StripSuffix(s: string, q: string): (r: Option<string>)
    ensures r.Some? <==> |q| <= |s| && s[|s| - |q|..] == q
    ensures r.Some? ==> s == r.value + q
  {
    if |q| <= |s| && s[|s| - |q|..] == q then Some(s[..|s| - |q|]) else None
  }

  lemma StripSuffixOf(t: string, q: string)
    ensures StripSuffix(t + q, q) == Some(t)
  {
    assert (t + q)[|t|..] == q;
    assert (t + q)[..|t|] == t;
  }
}

=== FILE: decision_engine.dfy ===
/** The readiness decision: objective fatigue (TSB) crossed with the athlete's
    self-report (src/lib/drWatts/decisionEngine.ts). */
module DecisionEngine {
  import opened CoachTypes

  /** TSB below -10 marks accumulated fatigue. */
  predicate IsFatigued(hard: UserHardData) {
    hard.tsb < -10.0
  }

  predicate IsFresh(hard: UserHardData) {
    hard.tsb >= -10.0
  }

  /** Any one warning sign makes the athlete feel bad. */
  predicate FeelsBad(s: UserSubjectiveData) {
    s.feeling == Tired || s.soreness || s.sleepQuality == Poor || s.rpe >= 7
  }

  /** Feeling good ignores sleep, so it is not the negation of feeling bad. */
  predicate FeelsGood(s: UserSubjectiveData) {
    s.feeling != Tired && !s.soreness && s.rpe < 7
  }

  /** The fixed justification attached to each category. */
  function Reason(t: DecisionType): string {
    match t
    case Recovery =>
      "數據顯示累積疲勞高 (Low TSB)，"
      + "且您主觀感到疲憊/痠痛。"
      + "為防止過度訓練，"
      + "今日強制休息或主動恢復。"
    case AdaptiveCap =>
      "數據顯示累積疲勞高，"
      + "雖然您感覺不錯，"
      + "但為避免生理崩潰，"
      + "今日強度上限鎖定在 Zone 2 (有氧騎)。"
    case Technic =>
      "數據顯示體能狀態鮮活 (High TSB)，"
      + "但您主觀感到無力。"
      + "建議進行技巧訓練或神經啟動，"
      + "避免高負重。"
    case Target =>
      "數據與體感皆顯示狀態良好，"
      + "可以執行目標課表。"
  }

  /** Every reason text is a single line, so it can be written as one line of
      an exported workout. */
  lemma ReasonSingleLine(t: DecisionType)
    ensures '\n' !in Reason(t)
  {
    match t
    case Recovery =>
      assert '\n' !in "數據顯示累積疲勞高 (Low TSB)，";
      assert '\n' !in "且您主觀感到疲憊/痠痛。";
      assert '\n' !in "為防止過度訓練，";
      assert '\n' !in "今日強制休息或主動恢復。";
    case AdaptiveCap =>
      assert '\n' !in "數據顯示累積疲勞高，";
      assert '\n' !in "雖然您感覺不錯，";
      assert '\n' !in "但為避免生理崩潰，";
      assert '\n' !in "今日強度上限鎖定在 Zone 2 (有氧騎)。";
    case Technic =>
      assert '\n' !in "數據顯示體能狀態鮮活 (High TSB)，";
      assert '\n' !in "但您主觀感到無力。";
      assert '\n' !in "建議進行技巧訓練或神經啟動，";
      assert '\n' !in "避免高負重。";
    case Target =>
      assert '\n' !in "數據與體感皆顯示狀態良好，";
      assert '\n' !in "可以執行目標課表。";
  }

  /** The fixed recommended focus attached to each category. */
  function RecommendedFocus(t: DecisionType): string {
    match t
    case Recovery => "Active Recovery (Zone 1)"
    case AdaptiveCap => "Endurance (Zone 2)"
    case Technic => "Neuromuscular / Cadence"
    case Target => "SST / VO2Max / Threshold"
  }

  /** The decision matrix, checked in the source's order: fatigued and bad,
      fatigued and good, fresh and bad, and otherwise the target session. */
  function DecideTraining(hard: UserHardData, subjective: UserSubjectiveData): (r: DecisionResult)
    ensures r.kind == Recovery <==> IsFatigued(hard) && FeelsBad(subjective)
    ensures r.kind == AdaptiveCap <==> IsFatigued(hard) && !FeelsBad(subjective)
    ensures r.kind == Technic <==> !IsFatigued(hard) && FeelsBad(subjective)
    ensures r.kind == Target <==> !IsFatigued(hard) && !FeelsBad(subjective)
    ensures r.reason == Reason(r.kind) && r.recommendedFocus == RecommendedFocus(r.kind)
  {
    var isFatigued := IsFatigued(hard);
    var isFresh := IsFresh(hard);
    var feelsBad := FeelsBad(subjective);
    var feelsGood := FeelsGood(subjective);
    if isFatigued && feelsBad then
      DecisionResult(Recovery, Reason(Recovery), RecommendedFocus(Recovery))
    else if isFatigued && feelsGood then
      DecisionResult(AdaptiveCap, Reason(AdaptiveCap), RecommendedFocus(AdaptiveCap))
    else if isFresh && feelsBad then
      DecisionResult(Technic, Reason(Technic), RecommendedFocus(Technic))
    else
      DecisionResult(Target, Reason(Target), RecommendedFocus(Target))
  }

  lemma FreshIsNotFatigued(hard: UserHardData)
    ensures IsFresh(hard) <==> !IsFatigued(hard)
  {
  }

  /** The two signals together cover every self-report. */
  lemma FeelsBadOrGood(s: UserSubjectiveData)
    ensures FeelsBad(s) || FeelsGood(s)
  {
  }

  /** Poor sleep alone makes both signals hold at once. */
  lemma SignalsOverlap()
    ensures var s := UserSubjectiveData(3, false, Poor, Ok); FeelsBad(s) && FeelsGood(s)
  {
  }

  /** With poor sleep and no other warning sign, a fatigued athlete is sent to
      recovery: the fatigued-and-bad branch wins the overlap. */
  lemma OverlapResolvedByOrder(hard: UserHardData)
    requires IsFatigued(hard)
    ensures DecideTraining(hard, UserSubjectiveData(3, false, Poor, Ok)).kind == Recovery
  {
  }

  /** The outcome depends on the records only through TSB and the feels-bad signal. */
  lemma DecisionDependsOnTsbAndFeelsBad(h1: UserHardData, s1: UserSubjectiveData, h2: UserHardData, s2: UserSubjectiveData)
    requires IsFatigued(h1) == IsFatigued(h2) && FeelsBad(s1) == FeelsBad(s2)
    ensures DecideTraining(h1, s1) == DecideTraining(h2, s2)
  {
  }
}

=== FILE: load_calculator.dfy ===
/** The training-load calculation done when an activity is analysed
    (src/lib/hooks/useDrTcu.ts, inside `analyzeActivity`), extracted as a pure
    function of the activity, an already-parsed manual FTP and the stored
    athlete profile's FTP. */
module LoadCalculator {
  import opened Common
  import opened CoachTypes
  import DecisionEngine

  const DefaultPower: real := 150.0
  const DefaultFtp: real := 200.0
  const DefaultMovingTime: real := 3600.0
  /** The hook does not track a load history; it always reports this TSB. */
  const PlaceholderTsb: real := -15.0

  /** JavaScript truthiness of an optional number: present and non-zero. */
  predicate Truthy(o: Option<real>) {
    o.Some? && o.value != 0.0
  }

  /** `o || d` on an optional number. */
  function OrElse(o: Option<real>, d: real): (r: real)
    ensures Truthy(o) ==> r == o.value
    ensures !Truthy(o) ==> r == d
  {
    if Truthy(o) then o.value else d
  }

  /** Weighted average power, else average power, else 150 W; a zero falls through. */
  function Power(a: StravaActivity): (p: real)
    ensures Truthy(a.weightedAverageWatts) ==> p == a.weightedAverageWatts.value
    ensures !Truthy(a.weightedAverageWatts) && Truthy(a.averageWatts) ==> p == a.averageWatts.value
    ensures !Truthy(a.weightedAverageWatts) && !Truthy(a.averageWatts) ==> p == DefaultPower
  {
    OrElse(a.weightedAverageWatts, OrElse(a.averageWatts, DefaultPower))
  }

  /** The manual override when one is stored, else a truthy profile FTP, else 200 W. */
  function EffectiveFtp(manualFtp: Option<int>, profileFtp: Option<real>): (ftp: real)
    ensures manualFtp.Some? ==> ftp == manualFtp.value as real
    ensures manualFtp.None? && Truthy(profileFtp) ==> ftp == profileFtp.value
    ensures manualFtp.None? && !Truthy(profileFtp) ==> ftp == DefaultFtp
  {
    if manualFtp.Some? then manualFtp.value as real else OrElse(profileFtp, DefaultFtp)
  }

  /** Moving time in seconds, 3600 when it is missing or zero. */
  function MovingTime(a: StravaActivity): (t: real)
    ensures Truthy(a.movingTime) ==> t == a.movingTime.value
    ensures !Truthy(a.movingTime) ==> t == DefaultMovingTime
  {
    OrElse(a.movingTime, DefaultMovingTime)
  }

  /** The unrounded score: seconds times power times intensity factor, over one
      hour at FTP, in percent. */
  function RawTss(t: real, p: real, ftp: real): real
    requires ftp > 0.0
  {
    t * p * (p / ftp) / (ftp * 3600.0) * 100.0
  }

  /** The score is the time in hours times the squared intensity factor, times 100. */
  lemma RawTssIsHoursTimesIfSquared(t: real, p: real, ftp: real)
    requires ftp > 0.0
    ensures RawTss(t, p, ftp) == t * (p / ftp) * (p / ftp) / 36.0
  {
    var i := p / ftp;
    assert p == i * ftp;
    assert t * p * i / (ftp * 3600.0) == t * i * i * ftp / (ftp * 3600.0);
    assert t * i * i * ftp / (ftp * 3600.0) == t * i * i / 3600.0;
  }

  function Tss(t: real, p: real, ftp: real): int
    requires ftp > 0.0
  {
    Round(RawTss(t, p, ftp))
  }

  /** One hour at FTP scores exactly 100. */
  lemma OneHourAtFtpScoresHundred(ftp: real)
    requires ftp > 0.0
    ensures Tss(3600.0, ftp, ftp) == 100
  {
    RawTssIsHoursTimesIfSquared(3600.0, ftp, ftp);
    assert ftp / ftp == 1.0;
  }

  lemma TssMonotoneInPower(t: real, p1: real, p2: real, ftp: real)
    requires ftp > 0.0 && t >= 0.0 && 0.0 <= p1 <= p2
    ensures Tss(t, p1, ftp) <= Tss(t, p2, ftp)
  {
    RawTssIsHoursTimesIfSquared(t, p1, ftp);
    RawTssIsHoursTimesIfSquared(t, p2, ftp);
    var i1, i2 := p1 / ftp, p2 / ftp;
    assert 0.0 <= i1 <= i2;
    assert i1 * i1 <= i2 * i2;
    assert t * i1 * i1 <= t * i2 * i2;
    RoundMonotone(RawTss(t, p1, ftp), RawTss(t, p2, ftp));
  }

  lemma TssMonotoneInTime(t1: real, t2: real, p: real, ftp: real)
    requires ftp > 0.0 && t1 <= t2
    ensures Tss(t1, p, ftp) <= Tss(t2, p, ftp)
  {
    RawTssIsHoursTimesIfSquared(t1, p, ftp);
    RawTssIsHoursTimesIfSquared(t2, p, ftp);
    var i := p / ftp;
    assert i * i >= 0.0;
    assert t1 * (i * i) <= t2 * (i * i);
    assert t1 * i * i == t1 * (i * i) && t2 * i * i == t2 * (i * i);
    RoundMonotone(RawTss(t1, p, ftp), RawTss(t2, p, ftp));
  }

  /** Rounding makes the score only non-decreasing in power: 100 W and 100.1 W
      at an FTP of 200 W over an hour both score 25. */
  lemma TssNotStrictlyMonotone()
    ensures Tss(3600.0, 100.0, 200.0) == Tss(3600.0, 100.1, 200.0) == 25
  {
    RawTssIsHoursTimesIfSquared(3600.0, 100.0, 200.0);
    RawTssIsHoursTimesIfSquared(3600.0, 100.1, 200.0);
  }

  /** The hard-data record built from one activity. The score uses the exact
      intensity factor; the record keeps it to two decimals. */
  function ComputeHardData(activity: StravaActivity, manualFtp: Option<int>, profileFtp: Option<real>): (h: UserHardData)
    requires EffectiveFtp(manualFtp, profileFtp) > 0.0
    ensures h.ftp == EffectiveFtp(manualFtp, profileFtp)
    ensures var i := Power(activity) / h.ftp;
      && -0.005 <= h.yesterdayIf - i <= 0.005
      && (i >= 0.0 ==> -0.005 < h.yesterdayIf - i)
      && (i < 0.0 ==> h.yesterdayIf - i < 0.005)
      && (h.yesterdayIf * 100.0).Floor as real == h.yesterdayIf * 100.0
      && h.yesterdayTss == Round(MovingTime(activity) * i * i / 36.0)
    ensures h.tsb == PlaceholderTsb
    ensures h.recentActivities == Some([activity])
    ensures h.sufferScore == Some(OrElse(activity.sufferScore, 0.0))
    ensures h.kilojoules == Some(OrElse(activity.kilojoules, 0.0))
    ensures h.maxHeartRate == Some(OrElse(activity.maxHeartrate, 0.0))
    ensures h.avgHeartRate == Some(OrElse(activity.averageHeartrate, 0.0))
  {
    var power := Power(activity);
    var ftp := EffectiveFtp(manualFtp, profileFtp);
    var intensityFactor := power / ftp;
    var movingTime := MovingTime(activity);
    var tss := Tss(movingTime, power, ftp);
    RawTssIsHoursTimesIfSquared(movingTime, power, ftp);
    UserHardData(
      ftp,
      tss,
      ToFixed(intensityFactor, 100.0),
      PlaceholderTsb,
      Some([activity]),
      Some(OrElse(activity.sufferScore, 0.0)),
      Some(OrElse(activity.kilojoules, 0.0)),
      Some(OrElse(activity.maxHeartrate, 0.0)),
      Some(OrElse(activity.averageHeartrate, 0.0)))
  }

  /** The placeholder TSB always counts as fatigue, so a decision made from this
      record can only be recovery or the capped endurance ride. */
  lemma HardDataDecisionIsCautious(activity: StravaActivity, manualFtp: Option<int>, profileFtp: Option<real>, s: UserSubjectiveData)
    requires EffectiveFtp(manualFtp, profileFtp) > 0.0
    ensures DecisionEngine.DecideTraining(ComputeHardData(activity, manualFtp, profileFtp), s).kind in {Recovery, AdaptiveCap}
  {
  }

  /** The score shown beside each listed activity (src/components/dr-tcu/CoachReportPanel.tsx):
      average power only, 0 when power or moving time is missing, and the
      report's FTP or 200 W. */
  function ListedActivityTss(activity: StravaActivity, reportFtp: Option<real>): (r: int)
    requires !Truthy(reportFtp) || reportFtp.value > 0.0
    ensures OrElse(activity.movingTime, 0.0) >= 0.0 ==> r >= 0
    ensures !Truthy(activity.averageWatts) || !Truthy(activity.movingTime) ==> r == 0
  {
    var power := OrElse(activity.averageWatts, 0.0);
    var ftp := OrElse(reportFtp, DefaultFtp);
    var movingTime := OrElse(activity.movingTime, 0.0);
    RawTssIsHoursTimesIfSquared(movingTime, power, ftp);
    var i := power / ftp;
    assert i * i >= 0.0;
    assert movingTime >= 0.0 ==> movingTime * i * i >= 0.0;
    Tss(movingTime, power, ftp)
  }

  /** The listed score agrees with the analysed one whenever the activity has a
      non-zero average power and moving time and no weighted average power. */
  lemma ListedTssAgreesWithHardData(activity: StravaActivity, manualFtp: Option<int>, profileFtp: Option<real>)
    requires EffectiveFtp(manualFtp, profileFtp) > 0.0
    requires !Truthy(activity.weightedAverageWatts) && Truthy(activity.averageWatts) && Truthy(activity.movingTime)
    ensures var h := ComputeHardData(activity, manualFtp, profileFtp);
      ListedActivityTss(activity, Some(h.ftp)) == h.yesterdayTss
  {
    var h := ComputeHardData(activity, manualFtp, profileFtp);
    RawTssIsHoursTimesIfSquared(MovingTime(activity), Power(activity), h.ftp);
  }
}

=== FILE: power_zones.dfy ===
/** The six power zones and the zone classifier (src/lib/drTcu/powerZones.ts),
    together with the minutes-and-seconds label used to show step durations. */
module PowerZones {
  import opened Common
  import opened CoachTypes

  const ZoneIds: set<int> := {1, 2, 3, 4, 5, 6}

  /** The zone table, keyed by zone number. */
  const Zones: map<int, PowerZone> := map[
    1 := PowerZone(1, "Active Recovery", 0, 55, "<55% FTP. 排酸、動態恢復。"),
    2 := PowerZone(2, "Endurance", 56, 75, "56-75% FTP. 有氧基礎與代謝效率。"),
    3 := PowerZone(3, "Tempo", 76, 90, "76-90% FTP. 肌肉耐力區間。"),
    4 := PowerZone(4, "Threshold", 91, 105, "91-105% FTP. 功能性閾值功率。"),
    5 := PowerZone(5, "VO2Max", 106, 120, "106-120% FTP. 擴大有氧引擎。"),
    6 := PowerZone(6, "Anaerobic", 121, 200, ">121% FTP. 無氧爆發。")
  ]

  /** The classifier's band for zone `z`: above the previous zone's upper bound
      and at most its own, with zone 1 open below and zone 6 open above. */
  predicate InBand(z: int, pct: real)
    requires z in ZoneIds
  {
    && (z == 1 || (Zones[z - 1].maxPct as real) < pct)
    && (z == 6 || pct <= (Zones[z].maxPct as real))
  }

  /** Classifies a percentage of FTP by ascending upper thresholds. The bands
      partition the reals: the chosen zone's band holds `pct` and no other does. */
  function GetZone(pct: real): (r: PowerZone)
    ensures r.zone in ZoneIds && Zones[r.zone] == r
    ensures InBand(r.zone, pct)
    ensures forall z | z in ZoneIds :: InBand(z, pct) ==> z == r.zone
  {
    if pct <= 55.0 then Zones[1]
    else if pct <= 75.0 then Zones[2]
    else if pct <= 90.0 then Zones[3]
    else if pct <= 105.0 then Zones[4]
    else if pct <= 120.0 then Zones[5]
    else Zones[6]
  }

  lemma ZoneTableConsistent()
    ensures Zones.Keys == ZoneIds
    ensures forall z | z in ZoneIds :: Zones[z].zone == z && Zones[z].minPct <= Zones[z].maxPct
    ensures forall z | z in ZoneIds && z < 6 :: Zones[z + 1].minPct == Zones[z].maxPct + 1
    ensures Zones[1].minPct == 0
  {
  }

  lemma GetZoneThresholds(pct: real)
    ensures GetZone(pct).zone == 1 <==> pct <= 55.0
    ensures GetZone(pct).zone == 2 <==> 55.0 < pct <= 75.0
    ensures GetZone(pct).zone == 3 <==> 75.0 < pct <= 90.0
    ensures GetZone(pct).zone == 4 <==> 90.0 < pct <= 105.0
    ensures GetZone(pct).zone == 5 <==> 105.0 < pct <= 120.0
    ensures GetZone(pct).zone == 6 <==> 120.0 < pct
  {
  }

  lemma GetZoneMonotone(p: real, q: real)
    requires p <= q
    ensures GetZone(p).zone <= GetZone(q).zone
  {
  }

  /** For whole percentages up to 200 the returned zone's table band holds the input. */
  lemma IntegerPctInTableBand(pct: int)
    requires 0 <= pct <= 200
    ensures GetZone(pct as real).minPct <= pct <= GetZone(pct as real).maxPct
  {
  }

  /** A fractional percentage between two integer bands lies in neither band of
      the table, and a percentage above 200 lies above zone 6's band. */
  lemma TableBandsMissFractionsAndExtremes()
    ensures GetZone(55.5).zone == 2 && 55.5 < GetZone(55.5).minPct as real
    ensures GetZone(250.0).zone == 6 && GetZone(250.0).maxPct < 250
  {
  }

  // ---------------------------------------------------------------------------
  // Duration labels

  /** The label `<m>m` or `<m>m <s>s` for a number of seconds: `m` is the floor
      of seconds / 60 and `s` the truncating remainder, shown only when positive. */
  function FormatDuration(seconds: int): (t: string)
    ensures SplitAt(t, 'm').Some? && SplitAt(t, 'm').value.0 == IntToString(seconds / 60)
    ensures t[|t| - 1] == 's' <==> JsRem(seconds, 60) > 0
  {
    var m := IntToString(seconds / 60);   // a positive divisor makes Dafny's division the floor
    var s := JsRem(seconds, 60);
    var rest := if s > 0 then " " + IntToString(s) + "s" else "";
    assert 'm' !in m by {
      if seconds / 60 < 0 {
        NonDigitNotInDigits(NatToString(-(seconds / 60)), 'm');
      } else {
        NonDigitNotInDigits(m, 'm');
      }
    }
    SplitAtFirst(m, 'm', rest);
    m + ['m'] + rest
  }

  /** Reads a label back into seconds. */
  function ParseDuration(t: string): Option<nat>
  {
    var parts :- SplitAt(t, 'm');
    var m :- ParseNatText(parts.0);
    var s :- ParseSeconds(parts.1);
    Some(60 * m + s)
  }

  /** Reads the optional ` <s>s` suffix; no suffix is zero seconds. */
  function ParseSeconds(t: string): Option<nat>
  {
    if t == "" then Some(0)
    else
      var tail :- StripPrefix(t, " ");
      var secs :- StripSuffix(tail, "s");
      ParseNatText(secs)
  }

  /** The suffix written for a remainder reads back to that remainder. */
  lemma SecondsSuffixRoundTrip(s: nat)
    ensures ParseSeconds(SecondsText(s)) == Some(s)
  {
    if s > 0 {
      StripPrefixOf(" ", NatToString(s) + "s");
      assert " " + NatToString(s) + "s" == " " + (NatToString(s) + "s");
      StripSuffixOf(NatToString(s), "s");
      ParseNatTextRoundTrip(s);
    }
  }

  /** The text of the ` <s>s` suffix, empty for a zero remainder. */
  function SecondsText(s: nat): string {
    if s > 0 then " " + NatToString(s) + "s" else ""
  }

  /** For a non-negative count the label is the minute digits, `m`, then the seconds suffix. */
  lemma LabelParts(seconds: nat)
    ensures FormatDuration(seconds) == NatToString(seconds / 60) + ['m'] + SecondsText(seconds % 60)
  {
  }

  /** Reading minute digits, `m` and a seconds suffix gives the total seconds. */
  lemma ReadLabel(m: nat, s: nat)
    ensures ParseDuration(NatToString(m) + ['m'] + SecondsText(s)) == Some(60 * m + s)
  {
    NonDigitNotInDigits(NatToString(m), 'm');
    SplitAtFirst(NatToString(m), 'm', SecondsText(s));
    ParseNatTextRoundTrip(m);
    SecondsSuffixRoundTrip(s);
  }

  /** For any non-negative count of seconds the label reads back to that count. */
  lemma {:induction false} FormatDurationRoundTrip(seconds: nat)
    ensures ParseDuration(FormatDuration(seconds)) == Some(seconds)
  {
    LabelParts(seconds);
    ReadLabel(seconds / 60, seconds % 60);
  }
}

=== FILE: strava_transform.dfy ===
/** Turning an activity's sample streams into one chart point per sample
    (src/lib/utils/strava.ts). The point count comes from the first `time`
    stream, while every value is read from the last stream of its type, the
    one a type-keyed map ends up holding. */
module StravaTransform {
  import opened Common
  import opened StreamAnalyzer

  /** An optional field of a point: not set, or set to what the read returned
      (`None` when the index is past the end of the series). */
  datatype Slot<T> = Unset | Set(read: Option<T>)

  datatype ActivityDataPoint = ActivityDataPoint(
    index: nat,
    time: Option<real>,
    distance: Option<real>,
    altitude: Slot<real>,
    lat: Option<real>,
    lng: Option<real>,
    speed: Slot<real>,
    heartrate: Slot<real>,
    cadence: Slot<real>,
    watts: Slot<real>,
    grade: Slot<real>,
    temp: Slot<real>,
    moving: Slot<bool>)

  /** Position of the last stream of the given type. */
  function LastIndex(streams: seq<StravaStream>, kind: string): (r: Option<nat>)
    ensures r.None? <==> !HasKind(streams, kind)
    ensures r.Some? ==> r.value < |streams| && streams[r.value].kind == kind
    ensures r.Some? ==> forall j | r.value < j < |streams| :: streams[j].kind != kind
  {
    if |streams| == 0 then None
    else if streams[|streams| - 1].kind == kind then Some(|streams| - 1)
    else LastIndex(streams[..|streams| - 1], kind)
  }

  /** The series the type-keyed map holds for a type: the last stream's data. */
  function SeriesOf(streams: seq<StravaStream>, kind: string): (r: Option<seq<Sample>>)
    ensures r.Some? <==> HasKind(streams, kind)
  {
    match LastIndex(streams, kind)
    case None => None
    case Some(k) => Some(streams[k].data)
  }

  /** Element `i` of a numeric series, `None` past its end. */
  function NumAt(data: seq<Sample>, i: nat): (r: Option<real>)
    ensures r.Some? ==> i < |data| && data[i] == Num(r.value)
  {
    if i < |data| && data[i].Num? then Some(data[i].value) else None
  }

  function FlagAt(data: seq<Sample>, i: nat): (r: Option<bool>)
    ensures r.Some? ==> i < |data| && data[i] == Flag(r.value)
  {
    if i < |data| && data[i].Flag? then Some(data[i].on) else None
  }

  /** Element `i` of the type's series, when the type has one. */
  function Read(streams: seq<StravaStream>, kind: string, i: nat): Option<real> {
    match SeriesOf(streams, kind)
    case None => None
    case Some(d) => NumAt(d, i)
  }

  /** An optional numeric field of the point. */
  function OptionalField(streams: seq<StravaStream>, kind: string, i: nat): Slot<real> {
    if HasKind(streams, kind) then Set(Read(streams, kind, i)) else Unset
  }

  /** A field set exactly when a stream of the type exists, to that type's element `i`. */
  predicate CopiedFrom(slot: Slot<real>, streams: seq<StravaStream>, kind: string, i: nat) {
    && (slot.Set? <==> HasKind(streams, kind))
    && (slot.Set? ==> slot.read == Read(streams, kind, i))
  }

  /** Speed in km/h from metres per second, to one decimal. */
  function SpeedKmh(metresPerSecond: real): (r: real)
    ensures -0.05 <= r - metresPerSecond * 3.6 <= 0.05
    ensures metresPerSecond >= 0.0 ==> -0.05 < r - metresPerSecond * 3.6
    ensures metresPerSecond < 0.0 ==> r - metresPerSecond * 3.6 < 0.05
    ensures (r * 10.0).Floor as real == r * 10.0
    ensures metresPerSecond >= 0.0 ==> r >= 0.0
  {
    ToFixed(metresPerSecond * 3.6, 10.0)
  }

  /** The chart point for sample `i`. */
  function PointAt(streams: seq<StravaStream>, i: nat): (p: ActivityDataPoint)
    ensures p.index == i
    ensures p.time == Read(streams, "time", i)
    ensures !HasKind(streams, "distance") ==> p.distance == Some(0.0)
    ensures HasKind(streams, "distance") ==> p.distance == Read(streams, "distance", i)
    ensures CopiedFrom(p.altitude, streams, "altitude", i)
    ensures CopiedFrom(p.watts, streams, "watts", i)
    ensures CopiedFrom(p.heartrate, streams, "heartrate", i)
    ensures CopiedFrom(p.cadence, streams, "cadence", i)
    ensures CopiedFrom(p.grade, streams, "grade_smooth", i)
    ensures CopiedFrom(p.temp, streams, "temp", i)
    ensures p.speed.Set? <==> HasKind(streams, "velocity_smooth")
    ensures p.moving.Set? <==> HasKind(streams, "moving")
    ensures p.moving.Set? ==> p.moving.read == FlagAt(SeriesOf(streams, "moving").value, i)
    ensures p.speed.Set? && p.speed.read.Some? ==>
      exists v :: Read(streams, "velocity_smooth", i) == Some(v) && p.speed.read.value == SpeedKmh(v)
    ensures Read(streams, "velocity_smooth", i).Some? ==>
      p.speed == Set(Some(SpeedKmh(Read(streams, "velocity_smooth", i).value)))
    ensures p.lat.Some? <==> p.lng.Some?
    ensures p.lat.Some? ==> exists d :: SeriesOf(streams, "latlng") == Some(d) && i < |d| && d[i] == LatLng(p.lat.value, p.lng.value)
    ensures forall d: seq<Sample> | SeriesOf(streams, "latlng") == Some(d) && i < |d| && d[i].LatLng? ::
      p.lat == Some(d[i].lat) && p.lng == Some(d[i].lng)
  {
    var speed :=
      match SeriesOf(streams, "velocity_smooth")
      case None => Unset
      case Some(d) => Set(match NumAt(d, i) case None => None case Some(v) => Some(SpeedKmh(v)));
    var moving :=
      match SeriesOf(streams, "moving")
      case None => Unset
      case Some(d) => Set(FlagAt(d, i));
    var position: Option<(real, real)> :=
      match SeriesOf(streams, "latlng")
      case None => None
      case Some(d) => if i < |d| && d[i].LatLng? then Some((d[i].lat, d[i].lng)) else None;
    ActivityDataPoint(
      i,
      Read(streams, "time", i),
      if HasKind(streams, "distance") then Read(streams, "distance", i) else Some(0.0),
      OptionalField(streams, "altitude", i),
      if position.Some? then Some(position.value.0) else None,
      if position.Some? then Some(position.value.1) else None,
      speed,
      OptionalField(streams, "heartrate", i),
      OptionalField(streams, "cadence", i),
      OptionalField(streams, "watts", i),
      OptionalField(streams, "grade_smooth", i),
      OptionalField(streams, "temp", i),
      moving)
  }

  /** One point per sample of the first `time` stream; nothing when there is
      no `time` stream. */
  method TransformStreamsToDataPoints(streams: seq<StravaStream>) returns (points: seq<ActivityDataPoint>)
    ensures !HasKind(streams, "time") ==> points == []
    ensures HasKind(streams, "time") ==> |points| == |Find(streams, "time").value.data|
    ensures forall k | 0 <= k < |points| :: points[k].index == k && points[k] == PointAt(streams, k)
  {
    points := [];
    var timeStream := Find(streams, "time");
    if timeStream.None? {
      return;
    }
    var length := |timeStream.value.data|;
    var i := 0;
    while i < length
      invariant 0 <= i <= length
      invariant |points| == i
      invariant forall k | 0 <= k < i :: points[k] == PointAt(streams, k)
    {
      points := points + [PointAt(streams, i)];
      i := i + 1;
    }
  }

  /** Every stream has exactly `n` samples, each of the shape its type declares. */
  predicate CoIndexed(streams: seq<StravaStream>, n: nat) {
    WellTyped(streams) && forall j | 0 <= j < |streams| :: |streams[j].data| == n
  }

  /** A numeric stream read inside its length always yields its sample. */
  lemma ReadWithinLength(streams: seq<StravaStream>, kind: string, n: nat, i: nat)
    requires CoIndexed(streams, n) && i < n && HasKind(streams, kind)
    requires kind != "latlng" && kind != "moving"
    ensures Read(streams, kind, i).Some?
    ensures exists j | 0 <= j < |streams| :: streams[j].kind == kind && Read(streams, kind, i) == Some(streams[j].data[i].value)
  {
    var k := LastIndex(streams, kind).value;
    assert SampleFits(streams[k].kind, streams[k].data[i]);
  }

  /** An optional numeric field read inside the common length always holds a number. */
  lemma FieldWithinLength(streams: seq<StravaStream>, kind: string, n: nat, i: nat)
    requires CoIndexed(streams, n) && i < n
    requires kind != "latlng" && kind != "moving"
    ensures OptionalField(streams, kind, i).Set? ==> OptionalField(streams, kind, i).read.Some?
  {
    if HasKind(streams, kind) {
      ReadWithinLength(streams, kind, n, i);
    }
  }

  /** When all streams share the length of the time stream, every point has a
      time, a distance and a number in every numeric field that is set. */
  lemma CoIndexedPointsAreComplete(streams: seq<StravaStream>, n: nat, i: nat)
    requires CoIndexed(streams, n) && HasKind(streams, "time") && i < n
    ensures var p := PointAt(streams, i);
      && p.time.Some?
      && p.distance.Some?
      && (p.altitude.Set? ==> p.altitude.read.Some?)
      && (p.watts.Set? ==> p.watts.read.Some?)
      && (p.heartrate.Set? ==> p.heartrate.read.Some?)
      && (p.cadence.Set? ==> p.cadence.read.Some?)
      && (p.grade.Set? ==> p.grade.read.Some?)
      && (p.temp.Set? ==> p.temp.read.Some?)
  {
    ReadWithinLength(streams, "time", n, i);
    if HasKind(streams, "distance") {
      ReadWithinLength(streams, "distance", n, i);
    }
    FieldWithinLength(streams, "altitude", n, i);
    FieldWithinLength(streams, "watts", n, i);
    FieldWithinLength(streams, "heartrate", n, i);
    FieldWithinLength(streams, "cadence", n, i);
    FieldWithinLength(streams, "grade_smooth", n, i);
    FieldWithinLength(streams, "temp", n, i);
  }

  /** The same for the converted speed, the moving flag and the position. */
  lemma CoIndexedPointsHaveSpeedFlagAndPosition(streams: seq<StravaStream>, n: nat, i: nat)
    requires CoIndexed(streams, n) && i < n
    ensures var p := PointAt(streams, i);
      && (p.speed.Set? ==> p.speed.read.Some?)
      && (p.moving.Set? ==> p.moving.read.Some?)
      && (HasKind(streams, "latlng") ==> p.lat.Some? && p.lng.Some?)
  {
    if HasKind(streams, "velocity_smooth") {
      var k := LastIndex(streams, "velocity_smooth").value;
      assert SampleFits(streams[k].kind, streams[k].data[i]);
    }
    if HasKind(streams, "moving") {
      var k := LastIndex(streams, "moving").value;
      assert SampleFits(streams[k].kind, streams[k].data[i]);
    }
    if HasKind(streams, "latlng") {
      var k := LastIndex(streams, "latlng").value;
      assert SampleFits(streams[k].kind, streams[k].data[i]);
    }
  }

  /** With a single `time` stream, the points' times are that stream's samples, in order. */
  lemma TimesFollowTheTimeStream(streams: seq<StravaStream>, points: seq<ActivityDataPoint>)
    requires WellTyped(streams) && HasKind(streams, "time")
    requires FindIndex(streams, "time") == LastIndex(streams, "time")
    requires |points| == |Find(streams, "time").value.data|
    requires forall k | 0 <= k < |points| :: points[k] == PointAt(streams, k)
    ensures var data := Find(streams, "time").value.data;
      forall k | 0 <= k < |points| :: data[k].Num? && points[k].time == Some(data[k].value)
  {
    var t := FindIndex(streams, "time").value;
    forall k | 0 <= k < |points|
      ensures streams[t].data[k].Num? && points[k].time == Some(streams[t].data[k].value)
    {
      assert SampleFits(streams[t].kind, streams[t].data[k]);
    }
  }

  /** Two `time` streams of different lengths: the points follow the first
      one's length but read the second one, so the last point has no time. */
  lemma ShorterLastTimeStreamLeavesGaps()
    ensures var streams := [
        StravaStream("time", [Num(0.0), Num(1.0)], "distance", 2, "high"),
        StravaStream("time", [Num(0.0)], "distance", 1, "high")];
      && |Find(streams, "time").value.data| == 2
      && PointAt(streams, 1).time == None
  {
    var streams := [
        StravaStream("time", [Num(0.0), Num(1.0)], "distance", 2, "high"),
        StravaStream("time", [Num(0.0)], "distance", 1, "high")];
    assert streams[0].kind == "time";
    assert LastIndex(streams, "time") == Some(1);
  }
}

=== FILE: stream_analyzer.dfy ===
/** Sample streams of one activity and the power analysis over them
    (src/lib/drTcu/streamAnalyzer.ts). */
module StreamAnalyzer {
  import opened Common
  import PowerZones

  /** One sample of a stream: a number, a latitude/longitude pair (the `latlng`
      stream) or a flag (the `moving` stream). */
  datatype Sample = Num(value: real) | LatLng(lat: real, lng: real) | Flag(on: bool)

  /** A named, co-indexed series of samples. `kind` is the source's `type` tag. */
  datatype StravaStream = StravaStream(
    kind: string,
    data: seq<Sample>,
    seriesType: string,
    originalSize: int,
    resolution: string)

  /** The sample shape each stream type carries: pairs for `latlng`, flags for
      `moving`, numbers for every other type. */
  predicate SampleFits(kind: string, x: Sample) {
    if kind == "latlng" then x.LatLng? else if kind == "moving" then x.Flag? else x.Num?
  }

  predicate WellTyped(streams: seq<StravaStream>) {
    forall i, j | 0 <= i < |streams| && 0 <= j < |streams[i].data| :: SampleFits(streams[i].kind, streams[i].data[j])
  }

  predicate HasKind(streams: seq<StravaStream>, kind: string) {
    exists i | 0 <= i < |streams| :: streams[i].kind == kind
  }

  /** Position of the first stream of the given type, as `Array.prototype.find` picks it. */
  function FindIndex(streams: seq<StravaStream>, kind: string): (r: Option<nat>)
    ensures r.None? <==> !HasKind(streams, kind)
    ensures r.Some? ==> r.value < |streams| && streams[r.value].kind == kind
    ensures r.Some? ==> forall j | 0 <= j < r.value :: streams[j].kind != kind
  {
    if |streams| == 0 then None
    else if streams[0].kind == kind then Some(0)
    else
      match FindIndex(streams[1..], kind)
      case None => None
      case Some(k) => Some(k + 1)
  }

  function Find(streams: seq<StravaStream>, kind: string): (r: Option<StravaStream>)
    ensures r.None? <==> !HasKind(streams, kind)
    ensures r.Some? ==> r.value.kind == kind && r.value in streams
  {
    match FindIndex(streams, kind)
    case None => None
    case Some(k) => Some(streams[k])
  }

  predicate Numeric(data: seq<Sample>) {
    forall i | 0 <= i < |data| :: data[i].Num?
  }

  function Numbers(data: seq<Sample>): (ws: seq<real>)
    requires Numeric(data)
    ensures |ws| == |data| && forall i | 0 <= i < |data| :: ws[i] == data[i].value
  {
    seq(|data|, i requires 0 <= i < |data| => data[i].value)
  }

  /** The power samples the analysis reads: those of the first `watts` stream. */
  function PowerData(streams: seq<StravaStream>): seq<real>
    requires WellTyped(streams)
  {
    match FindIndex(streams, "watts")
    case None => []
    case Some(k) =>
      assert Numeric(streams[k].data) by {
        forall j | 0 <= j < |streams[k].data| ensures streams[k].data[j].Num? {
          assert SampleFits(streams[k].kind, streams[k].data[j]);
        }
      }
      Numbers(streams[k].data)
  }

  /** The inline threshold chain the analysis applies to every sample. */
  function Bucket(pct: real): (zone: int)
    ensures zone in PowerZones.ZoneIds
  {
    if pct <= 55.0 then 1
    else if pct <= 75.0 then 2
    else if pct <= 90.0 then 3
    else if pct <= 105.0 then 4
    else if pct <= 120.0 then 5
    else 6
  }

  /** The inline chain and the zone classifier never diverge. */
  lemma BucketAgreesWithGetZone(pct: real)
    ensures Bucket(pct) == PowerZones.GetZone(pct).zone
  {
  }

  function Pct(watt: real, ftp: real): real
    requires ftp > 0.0
  {
    watt / ftp * 100.0
  }

  function Sum(ws: seq<real>): real
  {
    if |ws| == 0 then 0.0 else Sum(ws[..|ws| - 1]) + ws[|ws| - 1]
  }

  /** How many of the samples fall in zone `z`. */
  function CountIn(ws: seq<real>, ftp: real, z: int): nat
    requires ftp > 0.0
  {
    if |ws| == 0 then 0
    else CountIn(ws[..|ws| - 1], ftp, z) + (if Bucket(Pct(ws[|ws| - 1], ftp)) == z then 1 else 0)
  }

  /** Per-zone seconds, one second per sample, over exactly the zones 1 to 6. */
  type ZoneTally = m: map<int, nat> | m.Keys == {1, 2, 3, 4, 5, 6}
    witness map[1 := 0, 2 := 0, 3 := 0, 4 := 0, 5 := 0, 6 := 0]

  const EmptyTally: ZoneTally := map[1 := 0, 2 := 0, 3 := 0, 4 := 0, 5 := 0, 6 := 0]

  function TallyTotal(m: ZoneTally): nat {
    m[1] + m[2] + m[3] + m[4] + m[5] + m[6]
  }

  /** Every sample lands in exactly one zone, so the zone counts add up to the sample count. */
  lemma {:induction false} CountsCoverSamples(ws: seq<real>, ftp: real)
    requires ftp > 0.0
    ensures CountIn(ws, ftp, 1) + CountIn(ws, ftp, 2) + CountIn(ws, ftp, 3)
          + CountIn(ws, ftp, 4) + CountIn(ws, ftp, 5) + CountIn(ws, ftp, 6) == |ws|
  {
    if |ws| > 0 {
      CountsCoverSamples(ws[..|ws| - 1], ftp);
    }
  }

  datatype StreamAnalysis = StreamAnalysis(
    hasPower: bool,
    hasHeartRate: bool,
    averageWatts: real,
    maxWatts: real,
    timeInZones: ZoneTally,
    variabilityIndex: real)

  /** Power statistics and per-zone seconds of one activity. Presence flags only
      look for a stream of the type; the aggregates stay zero unless the first
      `watts` stream has samples. */
  method AnalyzeStreams(streams: seq<StravaStream>, ftp: real) returns (a: StreamAnalysis)
    requires ftp > 0.0
    requires WellTyped(streams)
    ensures a.hasPower <==> HasKind(streams, "watts")
    ensures a.hasHeartRate <==> HasKind(streams, "heartrate")
    ensures a.variabilityIndex == 1.0
    ensures PowerData(streams) == [] ==>
      a.averageWatts == 0.0 && a.maxWatts == 0.0 && a.timeInZones == EmptyTally
    ensures var ws := PowerData(streams);
      |ws| > 0 ==>
        && a.averageWatts == Sum(ws) / (|ws| as real)
        && (forall i | 0 <= i < |ws| :: ws[i] <= a.maxWatts)
        && (exists i | 0 <= i < |ws| :: ws[i] == a.maxWatts)
        && (forall z | z in PowerZones.ZoneIds :: a.timeInZones[z] == CountIn(ws, ftp, z))
        && TallyTotal(a.timeInZones) == |ws|
  {
    var hasPower := Find(streams, "watts").Some?;
    var hasHeartRate := Find(streams, "heartrate").Some?;
    a := StreamAnalysis(hasPower, hasHeartRate, 0.0, 0.0, EmptyTally, 1.0);
    var ws := PowerData(streams);
    if |ws| > 0 {
      var total, top, tally := Aggregate(ws, ftp);
      CountsCoverSamples(ws, ftp);
      a := a.(averageWatts := total / (|ws| as real), maxWatts := top, timeInZones := tally);
    }
  }

  /** One pass over the power samples: their sum, their maximum and the
      per-zone sample counts. */
  method Aggregate(ws: seq<real>, ftp: real) returns (total: real, top: real, tally: ZoneTally)
    requires ftp > 0.0 && |ws| > 0
    ensures total == Sum(ws)
    ensures forall i | 0 <= i < |ws| :: ws[i] <= top
    ensures exists i | 0 <= i < |ws| :: ws[i] == top
    ensures forall z | z in PowerZones.ZoneIds :: tally[z] == CountIn(ws, ftp, z)
  {
    total := 0.0;
    top := ws[0];
    tally := EmptyTally;
    var i := 0;
    while i < |ws|
      invariant 0 <= i <= |ws|
      invariant total == Sum(ws[..i])
      invariant forall j | 0 <= j < i :: ws[j] <= top
      invariant (i == 0 && top == ws[0]) || (exists j | 0 <= j < i :: ws[j] == top)
      invariant forall z | z in PowerZones.ZoneIds :: tally[z] == CountIn(ws[..i], ftp, z)
    {
      assert ws[..i + 1][..i] == ws[..i];
      total := total + ws[i];
      if ws[i] > top {
        top := ws[i];
      }
      var zone := Bucket(Pct(ws[i], ftp));
      tally := tally[zone := tally[zone] + 1];
      i := i + 1;
    }
    assert ws[..i] == ws;
  }

  /** Percent of classified seconds per zone, rounded; empty when nothing was classified. */
  function GetZoneDistribution(a: StreamAnalysis): (r: map<int, int>)
    ensures r == map[] <==> TallyTotal(a.timeInZones) == 0
    ensures TallyTotal(a.timeInZones) > 0 ==>
      && r.Keys == PowerZones.ZoneIds
      && forall z | z in r :: 0 <= r[z] <= 100
    ensures TallyTotal(a.timeInZones) > 0 ==>
      forall z | z in r ::
        r[z] == Round((a.timeInZones[z] as real) / (TallyTotal(a.timeInZones) as real) * 100.0)
  {
    var total := TallyTotal(a.timeInZones);
    if total == 0 then map[]
    else
      var m := a.timeInZones;
      var r := map z | z in PowerZones.ZoneIds :: ShareOf(m[z], total);
      assert 1 in r;
      r
  }

  /** One zone's rounded share of the total, in percent. */
  function ShareOf(secs: nat, total: nat): (r: int)
    requires secs <= total && total > 0
    ensures 0 <= r <= 100
  {
    Round((secs as real) / (total as real) * 100.0)
  }

  /** With exact arithmetic a sample at exactly 55 % of FTP is zone 1 and an
      exact half share rounds up; binary floating point can land just beside
      these values (110 W at 200 W gives 55.00000000000001, 23 of 40 seconds
      gives 57.49999999999999), which this model does not follow. */
  lemma ExactBoundaryCases()
    ensures Bucket(Pct(110.0, 200.0)) == 1
    ensures Bucket(Pct(137.5, 250.0)) == 1
    ensures ShareOf(23, 40) == 58
  {
    assert Pct(110.0, 200.0) == 55.0;
    assert Pct(137.5, 250.0) == 55.0;
  }

  function DistributionSum(d: map<int, int>): int
    requires d.Keys == PowerZones.ZoneIds
  {
    d[1] + d[2] + d[3] + d[4] + d[5] + d[6]
  }

  /** Shares of a whole, taken in percent, add up to 100. */
  lemma SharesAddToHundred(a: real, b: real, c: real, d: real, e: real, f: real, t: real)
    requires t > 0.0 && a + b + c + d + e + f == t
    ensures a / t * 100.0 + b / t * 100.0 + c / t * 100.0 + d / t * 100.0 + e / t * 100.0 + f / t * 100.0 == 100.0
  {
    var k := 100.0 / t;
    assert a / t * 100.0 == a * k && b / t * 100.0 == b * k && c / t * 100.0 == c * k;
    assert d / t * 100.0 == d * k && e / t * 100.0 == e * k && f / t * 100.0 == f * k;
    assert a * k + b * k + c * k + d * k + e * k + f * k == (a + b + c + d + e + f) * k;
    assert t * k == 100.0;
  }

  /** The rounded shares add up to 100 give or take the rounding of six values. */
  lemma DistributionNearlyHundred(a: StreamAnalysis)
    requires TallyTotal(a.timeInZones) > 0
    ensures 97 < DistributionSum(GetZoneDistribution(a)) <= 103
  {
    var m := a.timeInZones;
    var t := TallyTotal(m) as real;
    var d := GetZoneDistribution(a);
    SharesAddToHundred(m[1] as real, m[2] as real, m[3] as real, m[4] as real, m[5] as real, m[6] as real, t);
    assert d[1] == Round((m[1] as real) / t * 100.0) && d[2] == Round((m[2] as real) / t * 100.0);
    assert d[3] == Round((m[3] as real) / t * 100.0) && d[4] == Round((m[4] as real) / t * 100.0);
    assert d[5] == Round((m[5] as real) / t * 100.0) && d[6] == Round((m[6] as real) / t * 100.0);
  }
}

=== FILE: workout_generator.dfy ===
/** The four fixed workout templates, their totals, and the Zwift workout (ZWO)
    export (src/lib/drWatts/workoutGenerator.ts). */
module WorkoutGenerator {
  import opened Common
  import opened CoachTypes
  import PowerZones
  import LoadCalculator

  function Step(kind: StepType, seconds: int, pct: int, description: string): WorkoutStep {
    WorkoutStep(kind, seconds, pct, None, description)
  }

  /** The hand-authored steps for each decision category, in execution order. */
  function Template(t: DecisionType): seq<WorkoutStep> {
    match t
    case Recovery => [
      Step(Warmup, 600, 50, "輕鬆踩踏，喚醒肌肉"),
      Step(Active, 1200, 55, "保持 Zone 1，專注呼吸與放鬆"),
      Step(Cooldown, 300, 45, "極輕齒比緩和")
    ]
    case AdaptiveCap => [
      Step(Warmup, 600, 55, "緩慢熱身"),
      Step(Active, 2400, 70, "穩定的 Zone 2 輸出，禁止進入 Zone 3"),
      Step(Cooldown, 600, 50, "緩和")
    ]
    case Technic => [
      Step(Warmup, 900, 60, "熱身，漸進提升轉速"),
      WorkoutStep(Active, 30, 110, Some(110), "高轉速爆發 (專注流暢度)"),
      Step(Rest, 270, 50, "完全恢復"),
      WorkoutStep(Active, 30, 110, Some(120), "高轉速爆發"),
      Step(Rest, 270, 50, "完全恢復"),
      WorkoutStep(Active, 30, 110, Some(130), "高轉速爆發 (最高速)"),
      Step(Cooldown, 600, 50, "緩和")
    ]
    case Target => [
      Step(Warmup, 600, 60, "熱身"),
      Step(Active, 300, 80, "Tempo 區間準備"),
      Step(Rest, 180, 55, "恢復"),
      Step(Active, 1200, 90, "SST Block 1 (90% FTP)"),
      Step(Rest, 300, 55, "恢復"),
      Step(Active, 1200, 90, "SST Block 2 (90% FTP)"),
      Step(Cooldown, 600, 50, "緩和")
    ]
  }

  function Title(t: DecisionType): string {
    match t
    case Recovery => "Active Recovery Spin"
    case AdaptiveCap => "Strict Zone 2 Endurance"
    case Technic => "Cadence Drills & Neuromuscular"
    case Target => "Sweet Spot Training (SST)"
  }

  /** The zone name each category trains; the cadence drills are filed under
      Anaerobic for their short bursts. */
  function Focus(t: DecisionType): TrainingFocus {
    match t
    case Recovery => RecoveryFocus
    case AdaptiveCap => Endurance
    case Technic => Anaerobic
    case Target => Threshold
  }

  function TotalDuration(steps: seq<WorkoutStep>): int {
    if |steps| == 0 then 0 else steps[0].durationSeconds + TotalDuration(steps[1..])
  }

  /** A step's simplified stress: seconds times the squared power fraction, over 36. */
  function StepStress(s: WorkoutStep): real {
    var f := (s.powerPct as real) / 100.0;
    (s.durationSeconds as real) * (f * f) / 36.0
  }

  function TotalStress(steps: seq<WorkoutStep>): real {
    if |steps| == 0 then 0.0 else StepStress(steps[0]) + TotalStress(steps[1..])
  }

  /** The workout for a decision. Only the decision's category and reason are read. */
  function GenerateWorkout(decision: DecisionResult): (w: DailyWorkout)
    ensures w.steps == Template(decision.kind)
    ensures w.title == Title(decision.kind) && w.focus == Focus(decision.kind)
    ensures w.decisionReason == decision.reason
    ensures w.totalDurationSeconds == TotalDuration(w.steps)
    ensures w.totalTss == Round(TotalStress(w.steps))
    ensures w.nutritionStrategy.None?
  {
    var steps := Template(decision.kind);
    DailyWorkout(
      Title(decision.kind),
      Focus(decision.kind),
      decision.reason,
      steps,
      Round(TotalStress(steps)),
      TotalDuration(steps),
      None)
  }

  /** Step counts and exact totals of the four templates. */
  lemma TemplateTotals(decision: DecisionResult)
    ensures var w := GenerateWorkout(decision);
      match decision.kind
      case Recovery => |w.steps| == 3 && w.totalDurationSeconds == 2100 && w.totalTss == 16
      case AdaptiveCap => |w.steps| == 3 && w.totalDurationSeconds == 3600 && w.totalTss == 42
      case Technic => |w.steps| == 7 && w.totalDurationSeconds == 2130 && w.totalTss == 20
      case Target => |w.steps| == 7 && w.totalDurationSeconds == 4380 && w.totalTss == 74
  {
    match decision.kind
    case Recovery => RecoveryTotals();
    case AdaptiveCap => AdaptiveCapTotals();
    case Technic => TechnicTotals();
    case Target => TargetTotals();
  }

  lemma RecoveryTotals()
    ensures TotalDuration(Template(Recovery)) == 2100 && Round(TotalStress(Template(Recovery))) == 16
  {
    var steps := Template(Recovery);
    StressOfEachSuffix(steps);
    assert TotalStress(steps[2..]) == 300.0 * 0.2025 / 36.0;
    assert TotalStress(steps[1..]) == (1200.0 * 0.3025 + 300.0 * 0.2025) / 36.0;
    assert TotalStress(steps) == 15.9375;
    assert Round(15.9375) == 16;
  }

  lemma AdaptiveCapTotals()
    ensures TotalDuration(Template(AdaptiveCap)) == 3600 && Round(TotalStress(Template(AdaptiveCap))) == 42
  {
    var steps := Template(AdaptiveCap);
    StressOfEachSuffix(steps);
    assert TotalStress(steps[2..]) == 600.0 * 0.25 / 36.0;
    assert TotalStress(steps[1..]) == (2400.0 * 0.49 + 600.0 * 0.25) / 36.0;
    assert TotalStress(steps) == 41.875;
    assert Round(41.875) == 42;
  }

  lemma TechnicTotals()
    ensures TotalDuration(Template(Technic)) == 2130 && Round(TotalStress(Template(Technic))) == 20
  {
    var steps := Template(Technic);
    StressOfEachSuffix(steps);
    assert TotalStress(steps[4..]) == (270.0 * 0.25 + 30.0 * 1.21 + 600.0 * 0.25) / 36.0;
    assert TotalStress(steps[1..]) == (30.0 * 1.21 + 270.0 * 0.25 + 30.0 * 1.21 + 270.0 * 0.25 + 30.0 * 1.21 + 600.0 * 0.25) / 36.0;
    assert TotalStress(steps) == 717.9 / 36.0;
    assert Round(717.9 / 36.0) == 20;
  }

  lemma TargetTotals()
    ensures TotalDuration(Template(Target)) == 4380 && Round(TotalStress(Template(Target))) == 74
  {
    var steps := Template(Target);
    StressOfEachSuffix(steps);
    assert TotalDuration(steps[4..]) == 2100;
    assert TotalStress(steps[4..]) == (300.0 * 0.3025 + 1200.0 * 0.81 + 600.0 * 0.25) / 36.0;
    assert TotalStress(steps[3..]) == 2184.75 / 36.0;
    assert TotalStress(steps[2..]) == 2239.2 / 36.0;
    assert TotalStress(steps[1..]) == 2431.2 / 36.0;
    assert TotalStress(steps) == 2647.2 / 36.0;
    assert Round(2647.2 / 36.0) == 74;
  }

  /** Unfolds the duration and stress sums of a template from its last step to its first. */
  lemma StressOfEachSuffix(steps: seq<WorkoutStep>)
    ensures forall k | 0 <= k < |steps| :: TotalStress(steps[k..]) == StepStress(steps[k]) + TotalStress(steps[k + 1..])
    ensures forall k | 0 <= k < |steps| :: TotalDuration(steps[k..]) == steps[k].durationSeconds + TotalDuration(steps[k + 1..])
    ensures TotalStress(steps[|steps|..]) == 0.0 && TotalDuration(steps[|steps|..]) == 0
  {
    forall k | 0 <= k < |steps|
      ensures TotalStress(steps[k..]) == StepStress(steps[k]) + TotalStress(steps[k + 1..])
      ensures TotalDuration(steps[k..]) == steps[k].durationSeconds + TotalDuration(steps[k + 1..])
    {
      assert steps[k..][1..] == steps[k + 1..];
    }
  }

  /** Two decisions with the same category and reason give the same workout. */
  lemma GenerateWorkoutReadsKindAndReason(d1: DecisionResult, d2: DecisionResult)
    requires d1.kind == d2.kind && d1.reason == d2.reason
    ensures GenerateWorkout(d1) == GenerateWorkout(d2)
  {
  }

  /** Only the three cadence bursts carry a cadence: 110, 120 and 130 rpm, in that order. */
  lemma TemplateCadences(t: DecisionType)
    ensures t != Technic ==> forall i | 0 <= i < |Template(t)| :: Template(t)[i].cadence.None?
    ensures t == Technic ==>
      && Template(t)[1].cadence == Some(110)
      && Template(t)[3].cadence == Some(120)
      && Template(t)[5].cadence == Some(130)
      && forall i | 0 <= i < 7 && i != 1 && i != 3 && i != 5 :: Template(t)[i].cadence.None?
  {
  }

  /** Recovery stays in zone 1. */
  lemma RecoveryStaysInZoneOne()
    ensures forall i | 0 <= i < |Template(Recovery)| :: PowerZones.GetZone(Template(Recovery)[i].powerPct as real).zone == 1
  {
    forall i | 0 <= i < |Template(Recovery)|
      ensures PowerZones.GetZone(Template(Recovery)[i].powerPct as real).zone == 1
    {
      PowerZones.GetZoneThresholds(Template(Recovery)[i].powerPct as real);
    }
  }

  /** The capped endurance ride never enters zone 3, as its instructions say. */
  lemma AdaptiveCapStaysBelowZoneThree()
    ensures forall i | 0 <= i < |Template(AdaptiveCap)| :: PowerZones.GetZone(Template(AdaptiveCap)[i].powerPct as real).zone <= 2
  {
    forall i | 0 <= i < |Template(AdaptiveCap)|
      ensures PowerZones.GetZone(Template(AdaptiveCap)[i].powerPct as real).zone <= 2
    {
      PowerZones.GetZoneThresholds(Template(AdaptiveCap)[i].powerPct as real);
    }
  }

  /** The sweet-spot session tops out in zone 3, and its two main blocks are there. */
  lemma TargetPeaksInZoneThree()
    ensures forall i | 0 <= i < |Template(Target)| :: PowerZones.GetZone(Template(Target)[i].powerPct as real).zone <= 3
    ensures PowerZones.GetZone(Template(Target)[3].powerPct as real).zone == 3
    ensures PowerZones.GetZone(Template(Target)[5].powerPct as real).zone == 3
  {
    forall i | 0 <= i < |Template(Target)|
      ensures PowerZones.GetZone(Template(Target)[i].powerPct as real).zone <= 3
    {
      PowerZones.GetZoneThresholds(Template(Target)[i].powerPct as real);
    }
    PowerZones.GetZoneThresholds(90.0);
  }

  /** The cadence bursts, filed under the Anaerobic focus, are zone 5 efforts:
      no step of the drill session reaches zone 6. */
  lemma TechnicBurstsReachZoneFive()
    ensures forall i | 0 <= i < |Template(Technic)| :: PowerZones.GetZone(Template(Technic)[i].powerPct as real).zone <= 5
    ensures forall i | 0 <= i < |Template(Technic)| && i % 2 == 1 :: PowerZones.GetZone(Template(Technic)[i].powerPct as real).zone == 5
  {
    forall i | 0 <= i < |Template(Technic)|
      ensures PowerZones.GetZone(Template(Technic)[i].powerPct as real).zone <= 5
    {
      PowerZones.GetZoneThresholds(Template(Technic)[i].powerPct as real);
    }
    PowerZones.GetZoneThresholds(110.0);
  }

  /** A step's simplified stress is the activity score of riding that step at
      its power: the two formulas agree before rounding. */
  lemma StepStressIsActivityScore(s: WorkoutStep, ftp: real)
    requires ftp > 0.0
    ensures StepStress(s) == LoadCalculator.RawTss(s.durationSeconds as real, (s.powerPct as real) * ftp / 100.0, ftp)
  {
    var p := (s.powerPct as real) * ftp / 100.0;
    LoadCalculator.RawTssIsHoursTimesIfSquared(s.durationSeconds as real, p, ftp);
    assert p / ftp == (s.powerPct as real) / 100.0;
  }

  // ---------------------------------------------------------------------------
  // ZWO export

  /** JavaScript's text of `pct / 100` for a whole percentage: the exact decimal
      with trailing zeros dropped, so it reads back as the percentage. */
  function FormatPower(pct: int): (r: string)
    ensures pct >= 0 ==> ParsePower(r) == Some(pct)
    ensures pct < 0 ==> |r| >= 2 && r[0] == '-' && ParsePower(r[1..]) == Some(-pct)
    ensures '"' !in r && '\n' !in r
    ensures '.' in r ==> r[|r| - 1] != '0'
  {
    if pct < 0 then
      var t := FormatFraction(-pct);
      assert ("-" + t)[1..] == t;
      "-" + t
    else FormatFraction(pct)
  }

  /** The decimal text of `p / 100` for a non-negative `p`. */
  function FormatFraction(p: nat): (r: string)
    ensures |r| >= 1 && ParsePower(r) == Some(p)
    ensures '"' !in r && '\n' !in r
    ensures '.' in r ==> r[|r| - 1] != '0'
  {
    var q, f := p / 100, p % 100;
    var whole := NatToString(q);
    ParseNatTextRoundTrip(q);
    NonDigitNotInDigits(whole, '.');
    NonDigitNotInDigits(whole, '"');
    NonDigitNotInDigits(whole, '\n');
    if f == 0 then
      whole
    else
      var frac := if f % 10 == 0 then [DigitChar(f / 10)] else [DigitChar(f / 10), DigitChar(f % 10)];
      SplitAtFirst(whole, '.', frac);
      DigitValueOfChar(f / 10);
      DigitValueOfChar(f % 10);
      whole + ['.'] + frac
  }

  /** Reads a power fraction such as `0.55`, `1.1` or `1` back as a percentage. */
  function ParsePower(t: string): Option<nat> {
    match SplitAt(t, '.')
    case None =>
      var w :- ParseNatText(t);
      Some(100 * w)
    case Some(p) =>
      var w :- ParseNatText(p.0);
      var f :- ParseHundredths(p.1);
      Some(100 * w + f)
  }

  function ParseHundredths(f: string): Option<nat> {
    if |f| == 1 && IsDigit(f[0]) then Some(10 * DigitValue(f[0]))
    else if |f| == 2 && IsDigit(f[0]) && IsDigit(f[1]) then Some(10 * DigitValue(f[0]) + DigitValue(f[1]))
    else None
  }

  /** `x"rest`: an attribute value and its closing quote. */
  function Quoted(x: string, rest: string): string {
    x + ['"'] + rest
  }

  /** The end of every step element: the description, unescaped, in a CDATA block. */
  function CData(description: string, tag: string): string {
    "><![CDATA[" + (description + ("]]></" + tag + ">"))
  }

  /** The cadence attribute, written only for a present non-zero cadence. */
  function WithCadence(cadence: Option<int>, tail: string): string {
    if cadence.Some? && cadence.value != 0 then " Cadence=\"" + Quoted(IntToString(cadence.value), tail) else tail
  }

  /** One step's element, without its line break. */
  function StepLine(s: WorkoutStep): string {
    var d := IntToString(s.durationSeconds);
    var p := FormatPower(s.powerPct);
    match s.kind
    case Warmup =>
      "    <Warmup Duration=\"" + Quoted(d, " PowerLow=\"0.25\" PowerHigh=\"" + Quoted(p, CData(s.description, "Warmup")))
    case Cooldown =>
      "    <Cooldown Duration=\"" + Quoted(d, " PowerLow=\"" + Quoted(p, " PowerHigh=\"0.25\"" + CData(s.description, "Cooldown")))
    case Active =>
      "    <SteadyState Duration=\"" + Quoted(d, " Power=\"" + Quoted(p, WithCadence(s.cadence, CData(s.description, "SteadyState"))))
    case Rest =>
      "    <SteadyState Duration=\"" + Quoted(d, " Power=\"" + Quoted(p, WithCadence(s.cadence, CData(s.description, "SteadyState"))))
  }

  function StepElements(steps: seq<WorkoutStep>): string {
    if |steps| == 0 then "" else StepLine(steps[0]) + "\n" + StepElements(steps[1..])
  }

  function ZwoHeader(w: DailyWorkout): string {
    "<workout_file>\n"
    + "  <author>TCU Coach</author>\n"
    + "  <name>" + w.title + "</name>\n"
    + "  <description>" + w.decisionReason + "</description>\n"
    + "  <tags>\n    <tag name=\"TCUCoach\"/>\n  </tags>\n"
    + "  <workout>\n"
  }

  const ZwoFooter: string := "  </workout>\n</workout_file>"

  /** Emitting one more element line keeps the text emitted so far followed by
      the remaining elements unchanged. */
  lemma EmitOneStep(xml: string, steps: seq<WorkoutStep>, i: nat)
    requires i < |steps|
    ensures xml + StepElements(steps[i..]) == (xml + (StepLine(steps[i]) + "\n")) + StepElements(steps[i + 1..])
  {
    assert steps[i..][1..] == steps[i + 1..];
    var line := StepLine(steps[i]) + "\n";
    assert StepElements(steps[i..]) == line + StepElements(steps[i + 1..]);
  }

  /** The exported document: the header, one element per step in step order,
      and the closing tags. */
  method GenerateZwo(w: DailyWorkout) returns (xml: string)
    ensures xml == ZwoHeader(w) + StepElements(w.steps) + ZwoFooter
  {
    ghost var whole := ZwoHeader(w) + StepElements(w.steps);
    xml := ZwoHeader(w);
    var i := 0;
    assert w.steps[0..] == w.steps;
    while i < |w.steps|
      invariant 0 <= i <= |w.steps|
      invariant xml + StepElements(w.steps[i..]) == whole
    {
      EmitOneStep(xml, w.steps, i);
      xml := xml + (StepLine(w.steps[i]) + "\n");
      i := i + 1;
    }
    assert StepElements(w.steps[i..]) == "";
    assert xml == whole;
    xml := xml + ZwoFooter;
  }
}

=== FILE: zwo_reader.dfy ===
/** A reader for the exported Zwift workout document. Reading back what the
    exporter writes recovers the workout's name, its description and one
    segment per step, in step order. */
module ZwoReader {
  import opened Common
  import opened CoachTypes
  import opened WorkoutGenerator
  import DecisionEngine

  datatype SegmentTag = WarmupRamp | CooldownRamp | SteadyState

  /** What an element records about a step: the element kind, the duration, the
      power in percent of FTP, the cadence attribute and the CDATA text. */
  datatype Segment = Segment(tag: SegmentTag, duration: nat, powerPct: nat, cadence: Option<nat>, text: string)

  datatype ZwoFile = ZwoFile(name: string, description: string, segments: seq<Segment>)

  /** The segment a step is exported as. Active and rest steps share the
      steady-state element, the only one that carries a cadence, and a zero
      cadence is not written. */
  function SegmentOf(s: WorkoutStep): Segment
    requires Exportable(s)
  {
    var tag := match s.kind
      case Warmup => WarmupRamp
      case Cooldown => CooldownRamp
      case Active => SteadyState
      case Rest => SteadyState;
    var cadence := if tag == SteadyState && s.cadence.Some? && s.cadence.value != 0 then Some(s.cadence.value as nat) else None;
    Segment(tag, s.durationSeconds, s.powerPct, cadence, s.description)
  }

  /** Steps whose numbers are non-negative and whose description is a single line. */
  predicate Exportable(s: WorkoutStep) {
    && s.durationSeconds >= 0
    && s.powerPct >= 0
    && (s.cadence.Some? ==> s.cadence.value >= 0)
    && '\n' !in s.description
  }

  function SegmentsOf(steps: seq<WorkoutStep>): seq<Segment>
    requires forall i | 0 <= i < |steps| :: Exportable(steps[i])
  {
    if |steps| == 0 then [] else [SegmentOf(steps[0])] + SegmentsOf(steps[1..])
  }

  // ---------------------------------------------------------------------------
  // Numbers

  lemma NatTextHasNoQuote(n: nat)
    ensures '"' !in NatToString(n) && '\n' !in NatToString(n)
  {
    NonDigitNotInDigits(NatToString(n), '"');
    NonDigitNotInDigits(NatToString(n), '\n');
  }

  // ---------------------------------------------------------------------------
  // Elements

  /** The closing part shared by all elements: `><![CDATA[text]]></Tag>`. */
  function ReadCData(t: string, tag: string): Option<string> {
    var r :- StripPrefix(t, "><![CDATA[");
    StripSuffix(r, "]]></" + tag + ">")
  }

  lemma ReadCDataRoundTrip(description: string, tag: string)
    ensures ReadCData(CData(description, tag), tag) == Some(description)
  {
    StripPrefixOf("><![CDATA[", description + ("]]></" + tag + ">"));
    StripSuffixOf(description, "]]></" + tag + ">");
  }

  /** Reads the text up to the next quote as a non-negative integer, and returns the rest. */
  function ReadQuotedNat(t: string): Option<(nat, string)> {
    var p :- SplitAt(t, '"');
    var n :- ParseNatText(p.0);
    Some((n, p.1))
  }

  function ReadQuotedPower(t: string): Option<(nat, string)> {
    var p :- SplitAt(t, '"');
    var n :- ParsePower(p.0);
    Some((n, p.1))
  }

  lemma ReadQuotedNatRoundTrip(n: nat, rest: string)
    ensures ReadQuotedNat(Quoted(IntToString(n), rest)) == Some((n, rest))
  {
    NatTextHasNoQuote(n);
    SplitAtFirst(NatToString(n), '"', rest);
    ParseNatTextRoundTrip(n);
  }

  lemma ReadQuotedPowerRoundTrip(p: nat, rest: string)
    ensures ReadQuotedPower(Quoted(FormatPower(p), rest)) == Some((p, rest))
  {
    SplitAtFirst(FormatFraction(p), '"', rest);
  }

  const WarmupOpen := "    <Warmup Duration=\""
  const CooldownOpen := "    <Cooldown Duration=\""
  const SteadyOpen := "    <SteadyState Duration=\""

  /** Reads one element line, dispatching on its opening tag. */
  function ReadSegment(line: string): Option<Segment> {
    match StripPrefix(line, WarmupOpen)
    case Some(rest) => ReadWarmup(rest)
    case None =>
      match StripPrefix(line, CooldownOpen)
      case Some(rest) => ReadCooldown(rest)
      case None =>
        match StripPrefix(line, SteadyOpen)
        case Some(rest) => ReadSteady(rest)
        case None => None
  }

  function ReadWarmup(t: string): Option<Segment> {
    var d :- ReadQuotedNat(t);
    var r :- StripPrefix(d.1, " PowerLow=\"0.25\" PowerHigh=\"");
    var p :- ReadQuotedPower(r);
    var text :- ReadCData(p.1, "Warmup");
    Some(Segment(WarmupRamp, d.0, p.0, None, text))
  }

  function ReadCooldown(t: string): Option<Segment> {
    var d :- ReadQuotedNat(t);
    var r :- StripPrefix(d.1, " PowerLow=\"");
    var p :- ReadQuotedPower(r);
    var r2 :- StripPrefix(p.1, " PowerHigh=\"0.25\"");
    var text :- ReadCData(r2, "Cooldown");
    Some(Segment(CooldownRamp, d.0, p.0, None, text))
  }

  /** A steady-state element, with or without its cadence attribute. */
  function ReadSteady(t: string): Option<Segment> {
    var d :- ReadQuotedNat(t);
    var r :- StripPrefix(d.1, " Power=\"");
    var p :- ReadQuotedPower(r);
    match StripPrefix(p.1, " Cadence=\"")
    case Some(r2) =>
      var c :- ReadQuotedNat(r2);
      var text :- ReadCData(c.1, "SteadyState");
      Some(Segment(SteadyState, d.0, p.0, Some(c.0), text))
    case None =>
      var text :- ReadCData(p.1, "SteadyState");
      Some(Segment(SteadyState, d.0, p.0, None, text))
  }

  lemma WarmupRoundTrip(s: WorkoutStep)
    requires Exportable(s) && s.kind == Warmup
    ensures ReadWarmup(StepLine(s)[|WarmupOpen|..]) == Some(SegmentOf(s))
  {
    var p := FormatPower(s.powerPct);
    var cdata := CData(s.description, "Warmup");
    var lit := " PowerLow=\"0.25\" PowerHigh=\"";
    var tail := lit + Quoted(p, cdata);
    var rest := Quoted(IntToString(s.durationSeconds), tail);
    assert StepLine(s) == WarmupOpen + rest;
    assert StepLine(s)[|WarmupOpen|..] == rest;
    ReadQuotedNatRoundTrip(s.durationSeconds, tail);
    StripPrefixOf(lit, Quoted(p, cdata));
    ReadQuotedPowerRoundTrip(s.powerPct, cdata);
    ReadCDataRoundTrip(s.description, "Warmup");
  }

  lemma CooldownRoundTrip(s: WorkoutStep)
    requires Exportable(s) && s.kind == Cooldown
    ensures ReadCooldown(StepLine(s)[|CooldownOpen|..]) == Some(SegmentOf(s))
  {
    var p := FormatPower(s.powerPct);
    var cdata := CData(s.description, "Cooldown");
    var afterPower := " PowerHigh=\"0.25\"" + cdata;
    var tail := " PowerLow=\"" + Quoted(p, afterPower);
    var rest := Quoted(IntToString(s.durationSeconds), tail);
    assert StepLine(s) == CooldownOpen + rest;
    assert StepLine(s)[|CooldownOpen|..] == rest;
    ReadQuotedNatRoundTrip(s.durationSeconds, tail);
    StripPrefixOf(" PowerLow=\"", Quoted(p, afterPower));
    ReadQuotedPowerRoundTrip(s.powerPct, afterPower);
    StripPrefixOf(" PowerHigh=\"0.25\"", cdata);
    ReadCDataRoundTrip(s.description, "Cooldown");
  }

  lemma SteadyRoundTrip(s: WorkoutStep)
    requires Exportable(s) && (s.kind == Active || s.kind == Rest)
    ensures ReadSteady(StepLine(s)[|SteadyOpen|..]) == Some(SegmentOf(s))
  {
    var p := FormatPower(s.powerPct);
    var cdata := CData(s.description, "SteadyState");
    var afterPower := WithCadence(s.cadence, cdata);
    var tail := " Power=\"" + Quoted(p, afterPower);
    var rest := Quoted(IntToString(s.durationSeconds), tail);
    assert StepLine(s) == SteadyOpen + rest;
    assert StepLine(s)[|SteadyOpen|..] == rest;
    ReadQuotedNatRoundTrip(s.durationSeconds, tail);
    StripPrefixOf(" Power=\"", Quoted(p, afterPower));
    ReadQuotedPowerRoundTrip(s.powerPct, afterPower);
    ReadCDataRoundTrip(s.description, "SteadyState");
    if s.cadence.Some? && s.cadence.value != 0 {
      StripPrefixOf(" Cadence=\"", Quoted(IntToString(s.cadence.value), cdata));
      ReadQuotedNatRoundTrip(s.cadence.value, cdata);
    } else {
      assert afterPower == cdata;
      assert StripPrefix(afterPower, " Cadence=\"") == None by {
        assert afterPower[0] == '>';
      }
    }
  }

  /** The opening tag of each step's element selects the matching reader. */
  lemma ReadSegmentDispatch(s: WorkoutStep)
    ensures s.kind == Warmup ==> StripPrefix(StepLine(s), WarmupOpen) == Some(StepLine(s)[|WarmupOpen|..])
    ensures s.kind == Cooldown ==>
      && StripPrefix(StepLine(s), WarmupOpen) == None
      && StripPrefix(StepLine(s), CooldownOpen) == Some(StepLine(s)[|CooldownOpen|..])
    ensures (s.kind == Active || s.kind == Rest) ==>
      && StripPrefix(StepLine(s), WarmupOpen) == None
      && StripPrefix(StepLine(s), CooldownOpen) == None
      && StripPrefix(StepLine(s), SteadyOpen) == Some(StepLine(s)[|SteadyOpen|..])
  {
    var line := StepLine(s);
    match s.kind
    case Warmup =>
      assert line[..|WarmupOpen|] == WarmupOpen;
    case Cooldown =>
      assert line[..|CooldownOpen|] == CooldownOpen;
      assert line[5] == 'C';
    case Active =>
      assert line[..|SteadyOpen|] == SteadyOpen;
      assert line[5] == 'S';
    case Rest =>
      assert line[..|SteadyOpen|] == SteadyOpen;
      assert line[5] == 'S';
  }

  lemma ReadSegmentRoundTrip(s: WorkoutStep)
    requires Exportable(s)
    ensures ReadSegment(StepLine(s)) == Some(SegmentOf(s))
  {
    ReadSegmentDispatch(s);
    match s.kind
    case Warmup => WarmupRoundTrip(s);
    case Cooldown => CooldownRoundTrip(s);
    case Active => SteadyRoundTrip(s);
    case Rest => SteadyRoundTrip(s);
  }

  // ---------------------------------------------------------------------------
  // Documents

  const NameOpen: string := "<workout_file>\n" + "  <author>TCU Coach</author>\n" + "  <name>"
  const DescriptionOpen: string := "  <description>"
  const WorkoutOpen: string := "  <tags>\n    <tag name=\"TCUCoach\"/>\n  </tags>\n" + "  <workout>\n"

  /** Reads a line that ends with the given closing tag, and returns the text
      before the tag and what follows the line break. */
  function ReadLine(t: string, close: string): Option<(string, string)> {
    var p :- SplitAt(t, '\n');
    var text :- StripSuffix(p.0, close);
    Some((text, p.1))
  }

  lemma ReadLineRoundTrip(x: string, close: string, rest: string)
    requires '\n' !in x && '\n' !in close
    ensures ReadLine(x + (close + "\n") + rest, close) == Some((x, rest))
  {
    assert x + (close + "\n") + rest == x + close + ['\n'] + rest;
    SplitAtFirst(x + close, '\n', rest);
    StripSuffixOf(x, close);
  }

  /** Reads the step elements, one per line, each line ended by a line break. */
  function ReadSteps(body: string): Option<seq<Segment>>
    decreases |body|
  {
    if |body| == 0 then Some([])
    else
      var p :- SplitAt(body, '\n');
      var first :- ReadSegment(p.0);
      var rest :- ReadSteps(p.1);
      Some([first] + rest)
  }

  /** Reads a whole document: the fixed opening up to the name, the name line,
      the description line, the fixed tags, the step elements and the closing
      tags. */
  function ReadZwo(doc: string): Option<ZwoFile> {
    match StripPrefix(doc, NameOpen)
    case None => None
    case Some(r) =>
      match ReadLine(r, "</name>")
      case None => None
      case Some(p) => ReadDescribed(p.0, p.1)
  }

  function ReadDescribed(name: string, t: string): Option<ZwoFile> {
    match StripPrefix(t, DescriptionOpen)
    case None => None
    case Some(r) =>
      match ReadLine(r, "</description>")
      case None => None
      case Some(p) => ReadWorkout(name, p.0, p.1)
  }

  function ReadWorkout(name: string, description: string, t: string): Option<ZwoFile> {
    var r :- StripPrefix(t, WorkoutOpen);
    var body :- StripSuffix(r, ZwoFooter);
    var segments :- ReadSteps(body);
    Some(ZwoFile(name, description, segments))
  }

  /** Workouts whose texts are single lines and whose steps are exportable. */
  predicate ExportableWorkout(w: DailyWorkout) {
    && '\n' !in w.title
    && '\n' !in w.decisionReason
    && forall i | 0 <= i < |w.steps| :: Exportable(w.steps[i])
  }

  lemma StepLineSingle(s: WorkoutStep)
    requires Exportable(s)
    ensures '\n' !in StepLine(s)
  {
    match s.kind
    case Warmup => WarmupLineSingle(s);
    case Cooldown => CooldownLineSingle(s);
    case Active => SteadyLineSingle(s);
    case Rest => SteadyLineSingle(s);
  }

  lemma WarmupLineSingle(s: WorkoutStep)
    requires Exportable(s) && s.kind == Warmup
    ensures '\n' !in StepLine(s)
  {
    var d := IntToString(s.durationSeconds);
    var p := FormatPower(s.powerPct);
    NatTextHasNoQuote(s.durationSeconds);
    var cdata := CData(s.description, "Warmup");
    assert '\n' !in cdata;
    assert '\n' !in Quoted(p, cdata);
    assert '\n' !in Quoted(d, " PowerLow=\"0.25\" PowerHigh=\"" + Quoted(p, cdata));
  }

  lemma CooldownLineSingle(s: WorkoutStep)
    requires Exportable(s) && s.kind == Cooldown
    ensures '\n' !in StepLine(s)
  {
    var d := IntToString(s.durationSeconds);
    var p := FormatPower(s.powerPct);
    NatTextHasNoQuote(s.durationSeconds);
    var cdata := CData(s.description, "Cooldown");
    assert '\n' !in cdata;
    assert '\n' !in Quoted(p, " PowerHigh=\"0.25\"" + cdata);
    assert '\n' !in Quoted(d, " PowerLow=\"" + Quoted(p, " PowerHigh=\"0.25\"" + cdata));
  }

  lemma SteadyLineSingle(s: WorkoutStep)
    requires Exportable(s) && (s.kind == Active || s.kind == Rest)
    ensures '\n' !in StepLine(s)
  {
    var d := IntToString(s.durationSeconds);
    var p := FormatPower(s.powerPct);
    NatTextHasNoQuote(s.durationSeconds);
    var cdata := CData(s.description, "SteadyState");
    assert '\n' !in cdata;
    if s.cadence.Some? && s.cadence.value != 0 {
      NatTextHasNoQuote(s.cadence.value);
      assert '\n' !in Quoted(IntToString(s.cadence.value), cdata);
    }
    var afterPower := WithCadence(s.cadence, cdata);
    assert '\n' !in afterPower;
    assert '\n' !in Quoted(p, afterPower);
    assert '\n' !in Quoted(d, " Power=\"" + Quoted(p, afterPower));
  }

  lemma {:induction false} ReadStepsRoundTrip(steps: seq<WorkoutStep>)
    requires forall i | 0 <= i < |steps| :: Exportable(steps[i])
    ensures ReadSteps(StepElements(steps)) == Some(SegmentsOf(steps))
  {
    if |steps| > 0 {
      StepLineSingle(steps[0]);
      SplitAtFirst(StepLine(steps[0]), '\n', StepElements(steps[1..]));
      ReadSegmentRoundTrip(steps[0]);
      ReadStepsRoundTrip(steps[1..]);
    }
  }

  lemma Regroup(p1: string, p2: string, p3: string, t: string, n: string, d: string, r: string, e: string,
                q1: string, q2: string, b: string, f: string)
    ensures p1 + p2 + p3 + t + n + d + r + e + q1 + q2 + b + f
         == (p1 + p2 + p3) + (t + n + (d + (r + e + ((q1 + q2) + (b + f)))))
  {
  }

  /** The exported document, regrouped around the parts the reader takes apart. */
  lemma DocumentRegrouped(w: DailyWorkout)
    ensures ZwoHeader(w) + StepElements(w.steps) + ZwoFooter
         == NameOpen + (w.title + "</name>\n" + (DescriptionOpen + (w.decisionReason + "</description>\n"
            + (WorkoutOpen + (StepElements(w.steps) + ZwoFooter)))))
  {
    Regroup("<workout_file>\n", "  <author>TCU Coach</author>\n", "  <name>", w.title, "</name>\n",
      "  <description>", w.decisionReason, "</description>\n",
      "  <tags>\n    <tag name=\"TCUCoach\"/>\n  </tags>\n", "  <workout>\n",
      StepElements(w.steps), ZwoFooter);
  }

  lemma ReadWorkoutRoundTrip(w: DailyWorkout)
    requires forall i | 0 <= i < |w.steps| :: Exportable(w.steps[i])
    ensures ReadWorkout(w.title, w.decisionReason, WorkoutOpen + (StepElements(w.steps) + ZwoFooter))
         == Some(ZwoFile(w.title, w.decisionReason, SegmentsOf(w.steps)))
  {
    var body := StepElements(w.steps);
    StripPrefixOf(WorkoutOpen, body + ZwoFooter);
    StripSuffixOf(body, ZwoFooter);
    ReadStepsRoundTrip(w.steps);
  }

  lemma ReadDescribedRoundTrip(w: DailyWorkout)
    requires '\n' !in w.decisionReason
    requires forall i | 0 <= i < |w.steps| :: Exportable(w.steps[i])
    ensures ReadDescribed(w.title, DescriptionOpen + (w.decisionReason + "</description>\n"
              + (WorkoutOpen + (StepElements(w.steps) + ZwoFooter))))
         == Some(ZwoFile(w.title, w.decisionReason, SegmentsOf(w.steps)))
  {
    var rest := WorkoutOpen + (StepElements(w.steps) + ZwoFooter);
    StripPrefixOf(DescriptionOpen, w.decisionReason + "</description>\n" + rest);
    assert "</description>" + "\n" == "</description>\n";
    ReadLineRoundTrip(w.decisionReason, "</description>", rest);
    ReadWorkoutRoundTrip(w);
  }

  /** Reading back an exported workout recovers its title, its reason and one
      segment per step, in step order. */
  lemma ZwoRoundTrip(w: DailyWorkout)
    requires ExportableWorkout(w)
    ensures ReadZwo(ZwoHeader(w) + StepElements(w.steps) + ZwoFooter)
         == Some(ZwoFile(w.title, w.decisionReason, SegmentsOf(w.steps)))
  {
    var rest := DescriptionOpen + (w.decisionReason + "</description>\n"
      + (WorkoutOpen + (StepElements(w.steps) + ZwoFooter)));
    DocumentRegrouped(w);
    StripPrefixOf(NameOpen, w.title + "</name>\n" + rest);
    assert "</name>" + "\n" == "</name>\n";
    ReadLineRoundTrip(w.title, "</name>", rest);
    ReadDescribedRoundTrip(w);
  }

  /** The exporter's output, as the method computes it, reads back the same way. */
  method ExportAndRead(w: DailyWorkout) returns (f: Option<ZwoFile>)
    requires ExportableWorkout(w)
    ensures f == Some(ZwoFile(w.title, w.decisionReason, SegmentsOf(w.steps)))
  {
    var xml := GenerateZwo(w);
    ZwoRoundTrip(w);
    f := ReadZwo(xml);
  }

  /** Every workout the generator builds is exportable once the decision's
      reason is a single line: the titles and step texts are fixed single lines
      and every number is non-negative. */
  lemma GeneratedIsExportable(d: DecisionResult)
    requires '\n' !in d.reason
    ensures ExportableWorkout(GenerateWorkout(d))
  {
    var w := GenerateWorkout(d);
    TemplateExportable(d.kind);
    TitleSingleLine(d.kind);
    assert w.steps == Template(d.kind) && w.title == Title(d.kind) && w.decisionReason == d.reason;
  }

  lemma TitleSingleLine(t: DecisionType)
    ensures '\n' !in Title(t)
  {
    match t
    case Recovery =>
    case AdaptiveCap =>
    case Technic =>
    case Target =>
  }

  /** Every template step has non-negative numbers and a single-line text. */
  lemma TemplateExportable(t: DecisionType)
    ensures forall i | 0 <= i < |Template(t)| :: Exportable(Template(t)[i])
  {
    match t
    case Recovery => RecoveryExportable();
    case AdaptiveCap => AdaptiveCapExportable();
    case Technic => TechnicExportable();
    case Target => TargetExportable();
  }

  lemma RecoveryExportable()
    ensures forall i | 0 <= i < |Template(Recovery)| :: Exportable(Template(Recovery)[i])
  {
    var steps := Template(Recovery);
    assert Exportable(steps[0]);
    assert Exportable(steps[1]);
    assert Exportable(steps[2]);
  }

  lemma AdaptiveCapExportable()
    ensures forall i | 0 <= i < |Template(AdaptiveCap)| :: Exportable(Template(AdaptiveCap)[i])
  {
    var steps := Template(AdaptiveCap);
    assert Exportable(steps[0]);
    assert Exportable(steps[1]);
    assert Exportable(steps[2]);
  }

  lemma TechnicExportable()
    ensures forall i | 0 <= i < |Template(Technic)| :: Exportable(Template(Technic)[i])
  {
    var steps := Template(Technic);
    assert Exportable(steps[0]);
    assert Exportable(steps[1]);
    assert Exportable(steps[2]);
    assert Exportable(steps[3]);
    assert Exportable(steps[4]);
    assert Exportable(steps[5]);
    assert Exportable(steps[6]);
  }

  lemma TargetExportable()
    ensures forall i | 0 <= i < |Template(Target)| :: Exportable(Template(Target)[i])
  {
    var steps := Template(Target);
    assert Exportable(steps[0]);
    assert Exportable(steps[1]);
    assert Exportable(steps[2]);
    assert Exportable(steps[3]);
    assert Exportable(steps[4]);
    assert Exportable(steps[5]);
    assert Exportable(steps[6]);
  }

  /** Exporting a generated workout and reading it back gives its title, the
      decision's reason and one segment per template step. */
  lemma GeneratedWorkoutRoundTrip(d: DecisionResult)
    requires '\n' !in d.reason
    ensures var w := GenerateWorkout(d);
      && ExportableWorkout(w)
      && ReadZwo(ZwoHeader(w) + StepElements(w.steps) + ZwoFooter)
         == Some(ZwoFile(Title(d.kind), d.reason, SegmentsOf(Template(d.kind))))
  {
    GeneratedIsExportable(d);
    ZwoRoundTrip(GenerateWorkout(d));
  }

  /** Every workout built from a training decision exports and reads back: the
      category's title, the decision's reason and the template's segments. */
  lemma DecidedWorkoutRoundTrip(hard: UserHardData, subjective: UserSubjectiveData)
    ensures var d := DecisionEngine.DecideTraining(hard, subjective);
      var w := GenerateWorkout(d);
      && ExportableWorkout(w)
      && ReadZwo(ZwoHeader(w) + StepElements(w.steps) + ZwoFooter)
         == Some(ZwoFile(Title(d.kind), DecisionEngine.Reason(d.kind), SegmentsOf(Template(d.kind))))
  {
    var d := DecisionEngine.DecideTraining(hard, subjective);
    DecisionEngine.ReasonSingleLine(d.kind);
    GeneratedWorkoutRoundTrip(d);
  }
}
